=== FILE: README.md ===
# detekt Gradle plugins: variant-to-task resolution

This project is a Dafny model of the configuration logic in detekt's two Gradle plugins.

The Android plugin (`DetektAndroidPlugin`) runs once the build is configured. It:
- reads the Android extension's build variants;
- drops the variants matched by the three ignore lists of `DetektAndroidExtension`;
- registers one analysis task for every kept variant and for every kept secondary (instrumentation or unit-test) variant of a kept variant;
- wires the primaries' tasks under the umbrella `detektMain` and the secondaries' tasks under `detektTest`.

The base plugin (`DetektPlugin`):
- chooses or creates the settings extension;
- points its reports directory at `<reporting base>/detekt`;
- picks up `config/detekt/detekt.yml` when that file exists;
- declares the detekt-cli tool dependency;
- registers `detekt` and `detektBaseline` over the input directories that exist, with `check` depending on `detekt`;
- registers one task per Kotlin JVM source set.

Modelling choices:
- Everything is a pure function over immutable data.
- A file is the sequence of its path segments, and `File(dir, child)` is `dir + [child]`.
- The filesystem is a snapshot: the set of paths that exist.
- Kotlin nullables are `Option`.
- Gradle's exceptions are the `Failure` arm of a `Result`. This covers a task or extension name registered twice, and a JVM source set without a Kotlin source set.
- The Gradle task container is the set of registered names. It starts out holding the base plugin's `detekt`, `detektBaseline` and `detektGenerateConfig`. The source-set tasks, the variant tasks and the two umbrellas are then registered into it, and each of these is checked for a clash.
- `Registry.FirstTaken` names the first registration Gradle rejects because its name is already taken. `Registry.RegisterAll` is the registering loop, and it also records each umbrella's dependency set.
- Whether the base plugin was applied before the Android plugin is an input, because the second application of a plugin is a no-op.

Modules:
- `Outcomes`: `Option` and `Result`.
- `Naming`: task names, report files, descriptors and the existing-file filter.
- `Variants`: variants, extension kinds and secondaries.
- `AndroidExtension`: the ignore lists.
- `Registry`: the task container.
- `AndroidPlugin`: the filter, register and wire loop.
- `DetektPlugin`: the base plugin.
- `AndroidApply`: applying the Android plugin end to end.
- `AndroidScenarios`: the expectations of the plugin's Spek tests, as concrete lemmas.

Classpaths:
- An Android variant task's classpath is the variant's compile classpath filtered to the entries that exist, followed by the whole boot classpath, which is not filtered (DetektAndroidPlugin.kt:104).
- A JVM source-set task keeps the compile classpath whole and filters only the class-output directories to those that exist (DetektPlugin.kt:86).

## Model

| member | source | states |
|---|---|---|
| AndroidExtension.IgnoredIffSharedKey | detekt-gradle-android-plugin/src/main/kotlin/io/gitlab/arturbosch/detekt/DetektAndroidPlugin.kt:80-83 | A variant is ignored exactly when one of its three keys (name, build-type name, flavor name) appears in the matching ignore list. This is checked against an independent reading of the lists as a set of tagged keys. It is a disjunction: one match suffices. |
| AndroidExtension.CoversIffKeySubset | detekt-gradle-android-plugin/src/main/kotlin/io/gitlab/arturbosch/detekt/DetektAndroidPlugin.kt:80-83 | One set of ignore lists ignores by every entry of another exactly when its key set includes the other's. |
| AndroidExtension.IgnoredMonotone | detekt-gradle-android-plugin/src/main/kotlin/io/gitlab/arturbosch/detekt/DetektAndroidPlugin.kt:80-83 | Rules that cover others never keep a variant the others ignore. |
| AndroidExtension.AddingCovers | detekt-gradle-android-plugin/src/main/kotlin/io/gitlab/arturbosch/detekt/DetektAndroidPlugin.kt:80-83 | Adding a string to any of the three lists only strengthens the rules. The variant is then ignored iff it was already ignored or its corresponding field equals the string. |
| AndroidExtension.DefaultRulesIgnoreNothing | detekt-gradle-android-plugin/src/main/kotlin/io/gitlab/arturbosch/detekt/extensions/DetektAndroidExtension.kt:12-22 | The three lists default to empty, so by default no variant is ignored. |
| Variants.VariantsOf | detekt-gradle-android-plugin/src/main/kotlin/io/gitlab/arturbosch/detekt/DetektAndroidPlugin.kt:85-91 | The variant collection is absent exactly for an extension that is neither an application, a library nor a test extension. |
| Variants.ListOfNotNull | detekt-gradle-android-plugin/src/main/kotlin/io/gitlab/arturbosch/detekt/DetektAndroidPlugin.kt:94 | The result holds exactly the present values and is no longer than the input. |
| Variants.TestVariants | detekt-gradle-android-plugin/src/main/kotlin/io/gitlab/arturbosch/detekt/DetektAndroidPlugin.kt:93-95 | There are at most two secondaries, none for a variant that is not a tested variant. They are exactly the present instrumentation and unit-test variants, with the instrumentation variant first and the unit-test variant last. |
| AndroidPlugin.SecondaryJobs | detekt-gradle-android-plugin/src/main/kotlin/io/gitlab/arturbosch/detekt/DetektAndroidPlugin.kt:66-73 | Each secondary is re-checked with the same predicate on its own fields. The result holds exactly the test jobs for the secondaries that are not ignored. |
| AndroidPlugin.VariantJobs | detekt-gradle-android-plugin/src/main/kotlin/io/gitlab/arturbosch/detekt/DetektAndroidPlugin.kt:61-73 | An ignored variant contributes nothing, and its secondaries are never visited. A kept variant contributes its main job first, followed by exactly its kept secondaries. |
| AndroidPlugin.Plan | detekt-gradle-android-plugin/src/main/kotlin/io/gitlab/arturbosch/detekt/DetektAndroidPlugin.kt:60-74 | The loop plans a main job for exactly the kept primaries. It plans a test job for exactly the kept secondaries of kept primaries, and nothing else. |
| AndroidPlugin.AndroidTask | detekt-gradle-android-plugin/src/main/kotlin/io/gitlab/arturbosch/detekt/DetektAndroidPlugin.kt:97-109 | The task is named `detekt` + the capitalised variant name. Its three reports decode back to the raw variant name under the reports directory. Its sources are the union of the variant's Java directories. Its classpath holds exactly the existing compile-classpath entries and all boot-classpath entries, and it ends with the whole boot classpath. |
| AndroidPlugin.Registrations | detekt-gradle-android-plugin/src/main/kotlin/io/gitlab/arturbosch/detekt/DetektAndroidPlugin.kt:63-71 | Every planned job becomes one registration, in order, under its umbrella, with its variant's task descriptor. |
| AndroidPlugin.RegistrationNames | detekt-gradle-android-plugin/src/main/kotlin/io/gitlab/arturbosch/detekt/DetektAndroidPlugin.kt:102 | Each registration is named `detekt` + the capitalised name of its job's variant, in job order. |
| AndroidPlugin.RegistrationOfJob | detekt-gradle-android-plugin/src/main/kotlin/io/gitlab/arturbosch/detekt/DetektAndroidPlugin.kt:63-71 | A name is wired under an umbrella exactly when some planned job of that umbrella's kind has a variant with that task name. |
| AndroidPlugin.MainDependenciesExact | detekt-gradle-android-plugin/src/main/kotlin/io/gitlab/arturbosch/detekt/DetektAndroidPlugin.kt:60-65 | `detektMain`'s dependencies are exactly the task names of the kept primaries. |
| AndroidPlugin.TestDependenciesExact | detekt-gradle-android-plugin/src/main/kotlin/io/gitlab/arturbosch/detekt/DetektAndroidPlugin.kt:66-73 | `detektTest`'s dependencies are exactly the task names of the kept secondaries of kept primaries. |
| AndroidPlugin.DependenciesExact | detekt-gradle-android-plugin/src/main/kotlin/io/gitlab/arturbosch/detekt/DetektAndroidPlugin.kt:60-74 | Both umbrellas' dependency sets at once, each against its reference definition. |
| AndroidPlugin.NoVariantsNoTasks | detekt-gradle-android-plugin/src/main/kotlin/io/gitlab/arturbosch/detekt/DetektAndroidPlugin.kt:53-58 | No task at all is registered in three cases: without `kotlin-android`, without an Android extension, or with an unrecognised extension kind. |
| AndroidPlugin.PlanAppend | detekt-gradle-android-plugin/src/main/kotlin/io/gitlab/arturbosch/detekt/DetektAndroidPlugin.kt:60-74 | The loop treats each variant independently: the plan of a concatenation is the concatenation of the plans. |
| AndroidPlugin.IgnoredPrimaryContributesNothing | detekt-gradle-android-plugin/src/main/kotlin/io/gitlab/arturbosch/detekt/DetektAndroidPlugin.kt:60-74 | Removing an ignored primary from the enumeration leaves the plan unchanged. It therefore produces neither its own task nor any of its secondaries' tasks. |
| AndroidPlugin.PlanMonotone | detekt-gradle-android-plugin/src/main/kotlin/io/gitlab/arturbosch/detekt/DetektAndroidPlugin.kt:60-83 | With rules that ignore more, every planned job was already planned, and both dependency sets can only shrink. |
| AndroidPlugin.DefaultRulesKeepEverything | detekt-gradle-android-plugin/src/main/kotlin/io/gitlab/arturbosch/detekt/extensions/DetektAndroidExtension.kt:12-22 | With the default lists, every primary and every secondary variant gets a task under its umbrella. |
| AndroidPlugin.IgnoringSecondaryKeepsMain | detekt-gradle-android-plugin/src/main/kotlin/io/gitlab/arturbosch/detekt/DetektAndroidPlugin.kt:66-73 | Ignoring a secondary variant by name, when no primary carries that name, leaves `detektMain`'s dependencies unchanged. |
| AndroidPlugin.OrderIndependent | detekt-gradle-android-plugin/src/main/kotlin/io/gitlab/arturbosch/detekt/DetektAndroidPlugin.kt:60-74 | Both dependency sets depend only on which variants are enumerated, not on their order or repetition. |
| Naming.Capitalize | detekt-gradle-android-plugin/src/main/kotlin/io/gitlab/arturbosch/detekt/DetektAndroidPlugin.kt:102 | `capitalize` keeps the length and every character after the first. The first character ends up not lower-case and equal to the original up to case. |
| Naming.UpperAscii | detekt-gradle-android-plugin/src/main/kotlin/io/gitlab/arturbosch/detekt/DetektAndroidPlugin.kt:102 | Upper-casing yields no lower-case letter and agrees with the input up to case. |
| Naming.LowerAscii | detekt-gradle-android-plugin/src/main/kotlin/io/gitlab/arturbosch/detekt/DetektAndroidPlugin.kt:102 | Lower-casing yields no upper-case letter and fixes every character that is not upper-case. |
| Naming.UpperDependsOnlyOnLower | detekt-gradle-android-plugin/src/main/kotlin/io/gitlab/arturbosch/detekt/DetektAndroidPlugin.kt:102 | Characters equal up to case upper-case to the same character. |
| Naming.TaskName | detekt-gradle-plugin/src/main/kotlin/io/gitlab/arturbosch/detekt/DetektPlugin.kt:84 | A task name is `detekt` (the constant at line 154) followed by a string as long as the unit name. |
| Naming.TaskNameRoundTrip | detekt-gradle-android-plugin/src/main/kotlin/io/gitlab/arturbosch/detekt/DetektAndroidPlugin.kt:102 | The unit name is recovered from its task name whenever it does not start with an upper-case letter. |
| Naming.TaskNameCollision | detekt-gradle-android-plugin/src/main/kotlin/io/gitlab/arturbosch/detekt/DetektAndroidPlugin.kt:102 | Two unit names get the same task name exactly when they differ at most in the case of their first letter. |
| Naming.ReportsFor | detekt-gradle-android-plugin/src/main/kotlin/io/gitlab/arturbosch/detekt/DetektAndroidPlugin.kt:105-107 | Each of the three report files decodes back to the raw unit name under the reports directory, with its own extension. |
| Naming.ReportFileDecodes | detekt-gradle-android-plugin/src/main/kotlin/io/gitlab/arturbosch/detekt/DetektAndroidPlugin.kt:105-107 | `File(reportsDir, name + ext)` decodes back to `name`. |
| Naming.ReportFileInjective | detekt-gradle-plugin/src/main/kotlin/io/gitlab/arturbosch/detekt/DetektPlugin.kt:87-89 | A report file determines both its unit name and its extension. |
| Naming.ReportsDistinct | detekt-gradle-plugin/src/main/kotlin/io/gitlab/arturbosch/detekt/DetektPlugin.kt:87-89 | One task's three report files are pairwise distinct. |
| Naming.ReportsDisjoint | detekt-gradle-android-plugin/src/main/kotlin/io/gitlab/arturbosch/detekt/DetektAndroidPlugin.kt:105-107 | Tasks for different units never share a report file, even though they share a reports directory. |
| Naming.KeepExisting | detekt-gradle-plugin/src/main/kotlin/io/gitlab/arturbosch/detekt/DetektPlugin.kt:115 | `filter { it.exists() }` keeps exactly the entries that exist, and never lengthens the list. |
| Naming.Flatten | detekt-gradle-android-plugin/src/main/kotlin/io/gitlab/arturbosch/detekt/DetektAndroidPlugin.kt:103 | A path is in the flattened source list exactly when it is in some source directory group. |
| Registry.RegisterAll | detekt-gradle-android-plugin/src/main/kotlin/io/gitlab/arturbosch/detekt/DetektAndroidPlugin.kt:63-71 | Registration succeeds exactly when every name is new. On success the tasks are the old ones plus the new names, and each umbrella depends on exactly the names registered under it. On failure the error is the name `FirstTaken` picks, which `FirstTakenIsFirst` shows to be already registered or repeated earlier in the sequence. |
| Registry.FirstTaken | detekt-gradle-android-plugin/src/main/kotlin/io/gitlab/arturbosch/detekt/DetektAndroidPlugin.kt:63-71 | Registering names one after another hits a taken name exactly when the sequence is not fresh: some name is already registered or two names coincide. The name reported is one of the names being registered. |
| Registry.FirstTakenIsFirst | detekt-gradle-android-plugin/src/main/kotlin/io/gitlab/arturbosch/detekt/DetektAndroidPlugin.kt:63-71 | The reported name is taken when its turn comes, and every name before it went through. |
| Registry.FirstTakenAppend | detekt-gradle-android-plugin/src/main/kotlin/io/gitlab/arturbosch/detekt/DetektAndroidPlugin.kt:60-74 | Registering two batches in a row rejects the first batch's clash when it has one. Otherwise it rejects the second batch's clash against a container that also holds the first batch. |
| DetektPlugin.GetOrCreateExtension | detekt-gradle-plugin/src/main/kotlin/io/gitlab/arturbosch/detekt/DetektPlugin.kt:43-45 | An existing `detektAndroid` extension that is a detekt extension is reused, and a `detektAndroid` result only comes from such an existing extension. Otherwise a new `detekt` extension with the fresh settings is created. Creation fails, with a duplicate `detekt`, exactly when no `detektAndroid` is reusable and the name `detekt` is taken. The chosen extension's settings are those of the reused `detektAndroid`, or the fresh ones. |
| DetektPlugin.ToolDependency | detekt-gradle-plugin/src/main/kotlin/io/gitlab/arturbosch/detekt/DetektPlugin.kt:129-133 | The detekt-cli coordinate carries `toolVersion` when it is set and the default version otherwise. |
| DetektPlugin.ExistingInputTask | detekt-gradle-plugin/src/main/kotlin/io/gitlab/arturbosch/detekt/DetektPlugin.kt:104-115 | The baseline task, like the plain task at lines 68-70, analyses exactly the configured input directories that exist. It includes `**/*.kt` and `**/*.kts` and excludes `build/`, the constants of lines 159-160. |
| DetektPlugin.JvmTask | detekt-gradle-plugin/src/main/kotlin/io/gitlab/arturbosch/detekt/DetektPlugin.kt:81-92 | The task fails exactly when the source set has no Kotlin source set. Otherwise it is named after the source set, and its reports decode to the source-set name. Its sources are the Kotlin files. Its classpath is the whole compile classpath followed by the class-output directories that exist. |
| DetektPlugin.JvmTasks | detekt-gradle-plugin/src/main/kotlin/io/gitlab/arturbosch/detekt/DetektPlugin.kt:49-53 | One task per source set, in order. The first source set without Kotlin fails the whole registration. |
| DetektPlugin.Apply | detekt-gradle-plugin/src/main/kotlin/io/gitlab/arturbosch/detekt/DetektPlugin.kt:21-39 | Applying the base plugin succeeds exactly when three things hold: the extension can be chosen, every JVM source set has a Kotlin source set, and no source-set task name is taken by the base tasks or by an earlier source set. A duplicate is reported under the first clashing name. On success: <br>• the extension is `detektAndroid` exactly when that one is reusable; <br>• the container holds the three base tasks plus the source-set tasks; <br>• reports go to `<reporting base>/detekt`; <br>• an existing default config file is used; <br>• it declares the tool dependency; <br>• `detekt` and `detektBaseline` analyse the same existing inputs; <br>• `check` depends on `detekt` when there is a `check` task; <br>• with the Kotlin JVM plugin there is one task per source set. <br>The user's tool version and input directories are kept from the chosen extension, and so is its config unless the default config file exists. |
| DetektPlugin.JvmTaskNamesOfStandardSourceSets | detekt-gradle-plugin/src/main/kotlin/io/gitlab/arturbosch/detekt/DetektPlugin.kt:84 | The source sets `main` and `test` get the tasks `detektMain` and `detektTest`, the same names as the Android umbrellas. |
| DetektPlugin.JvmRegistrations | detekt-gradle-plugin/src/main/kotlin/io/gitlab/arturbosch/detekt/DetektPlugin.kt:51-53 | Source-set tasks are registered in order and under no umbrella. |
| DetektPlugin.RegisterSourceSets | detekt-gradle-plugin/src/main/kotlin/io/gitlab/arturbosch/detekt/DetektPlugin.kt:47-56 | The source-set registration succeeds exactly when every source set has a Kotlin source set and the source-set task names are fresh after the base tasks. A duplicate is reported under the first clash. On success the container is the base tasks plus the source-set task names. |
| DetektPlugin.BaselineSourceSetClashes | detekt-gradle-plugin/src/main/kotlin/io/gitlab/arturbosch/detekt/DetektPlugin.kt:84-95 | A source set named `baseline` asks for `detektBaseline`, a name the base plugin already registered, so applying fails. |
| DetektPlugin.CaseClashingSourceSets | detekt-gradle-plugin/src/main/kotlin/io/gitlab/arturbosch/detekt/DetektPlugin.kt:84 | Two source sets whose names differ only in the case of the first letter ask for one task name, so applying fails. |
| AndroidApply.ApplyAndroidPlugin | detekt-gradle-android-plugin/src/main/kotlin/io/gitlab/arturbosch/detekt/DetektAndroidPlugin.kt:40-78 | Applying the Android plugin succeeds exactly when `Configurable` holds: <br>• `detektAndroid` is a new extension; <br>• `detekt` is new too when the base plugin came first; <br>• every JVM source set has Kotlin; <br>• the source-set tasks, the variant tasks and the umbrellas that receive a dependency all get names that are not yet taken. <br>Each failure is classified by its cause, and a duplicate task is reported under the first clashing name. On success: <br>• the base plugin's extension is `detektAndroid`, or `detekt` when the base plugin came first; <br>• the container holds exactly the base tasks and the configured names; <br>• the umbrellas depend on exactly the kept primaries' and the kept secondaries' task names; <br>• every variant task reports into the Android extension's reports directory. <br>Extension clashes are reported before any error the source-set or variant registration finds. On success the registrations are exactly `Registrations` of the planned jobs with the Android reports directory, so every wired name has its task descriptor. <br>On success the setup is exactly the one `ApplyBasePlugin` produces, so the base plugin is applied. In particular `check`, when present, depends on `detekt`. |
| AndroidApply.ApplyBasePlugin | detekt-gradle-android-plugin/src/main/kotlin/io/gitlab/arturbosch/detekt/DetektAndroidPlugin.kt:40-48 | Creating `detektAndroid` and applying the base plugin succeeds exactly when four things hold: `detektAndroid` is new, `detekt` is new when the base plugin came first, the source sets have Kotlin, and the source-set task names are fresh. When the base plugin came first it keeps its own `detekt` extension and the Android extension keeps its initial reports directory. Otherwise the base plugin adopts `detektAndroid` and points it at `<reporting base>/detekt`. Both extensions are created while the build script runs. So an existing `detektAndroid` fails with `DuplicateExtension("detektAndroid")` before any source-set check, in either plugin order, except when the base plugin came first, `detekt` was already taken and no existing `detektAndroid` is a detekt extension for the base plugin to reuse (`!BaseExtensionCreatable`); that `detekt` clash comes first. On success the plain `detekt` task exists and `check`, when present, depends on it. |
| AndroidApply.AndroidPluginWiresCheck | detekt-gradle-android-plugin/src/test/kotlin/io/gitlab/arturbosch/detekt/DetektAndroidPluginTest.kt:20-28 | Applying the Android plugin to a project where nothing is in the way applies the base plugin. The plain `detekt` task is registered, and `check` depends on it when the project has one. |
| AndroidApply.RegisterVariantTasks | detekt-gradle-android-plugin/src/main/kotlin/io/gitlab/arturbosch/detekt/DetektAndroidPlugin.kt:24-73 | Registering the variant tasks and then each umbrella that received a dependency succeeds exactly when all of these names are fresh. A failure names the first clash. On success the container gains exactly these names, and each umbrella's dependencies are exactly the tasks wired under it. |
| AndroidApply.JvmClashComesFirst | detekt-gradle-android-plugin/src/main/kotlin/io/gitlab/arturbosch/detekt/DetektAndroidPlugin.kt:48-49 | A clash among the source-set tasks is the first clash of the whole configuration. |
| AndroidApply.VariantNamedMainClashes | detekt-gradle-android-plugin/src/main/kotlin/io/gitlab/arturbosch/detekt/DetektAndroidPlugin.kt:24-64 | A kept variant named `main` asks for the task `detektMain`, the name of the umbrella it is wired under, so configuration fails. |
| AndroidApply.SourceSetNamedMainClashes | detekt-gradle-android-plugin/src/main/kotlin/io/gitlab/arturbosch/detekt/DetektAndroidPlugin.kt:24-30 | A JVM source set named `main` takes `detektMain`. Configuration therefore fails as soon as a kept variant needs the Android umbrella of that name. |
| AndroidScenarios.UnfilteredScenario | detekt-gradle-android-plugin/src/test/kotlin/io/gitlab/arturbosch/detekt/DetektAndroidPluginTest.kt:109-153 | The flavor matrix without ignore rules: `detektMain` depends on all eight variant tasks, and `detektTest` on the twelve test tasks. |
| AndroidScenarios.IgnoredVariantsScenario | detekt-gradle-android-plugin/src/test/kotlin/io/gitlab/arturbosch/detekt/DetektAndroidPluginTest.kt:156-199 | Ignoring `youngHarryDebug` and `oldSallyRelease` leaves six main tasks and nine test tasks, exactly the test's expectations. |
| AndroidScenarios.IgnoredBuildTypeScenario | detekt-gradle-android-plugin/src/test/kotlin/io/gitlab/arturbosch/detekt/DetektAndroidPluginTest.kt:202-242 | Ignoring the `release` build type leaves the four debug tasks and their eight test tasks. |
| AndroidScenarios.IgnoredFlavorsScenario | detekt-gradle-android-plugin/src/test/kotlin/io/gitlab/arturbosch/detekt/DetektAndroidPluginTest.kt:245-283 | Ignoring the flavors `oldHarry` and `youngSally` leaves four main tasks and six test tasks. |
| AndroidScenarios.LibraryScenario | detekt-gradle-android-plugin/src/test/kotlin/io/gitlab/arturbosch/detekt/DetektAndroidPluginTest.kt:31-54 | A library without flavors: `detektMain` depends on `detektDebug` and `detektRelease`. `detektTest` depends on both unit-test tasks and `detektDebugAndroidTest`. |
| AndroidScenarios.ApplicationScenario | detekt-gradle-android-plugin/src/test/kotlin/io/gitlab/arturbosch/detekt/DetektAndroidPluginTest.kt:56-79 | An application without flavors gets the same dependencies as the library. |
| AndroidScenarios.TestPluginScenario | detekt-gradle-android-plugin/src/test/kotlin/io/gitlab/arturbosch/detekt/DetektAndroidPluginTest.kt:81-106 | A test project: `detektMain` depends on `detektDebug` only, and `detektTest` on nothing. |

## Left out

- Gradle's lifecycle plumbing is collapsed into one call made after configuration is complete. This covers `afterEvaluate`, `plugins.withId`, lazy `TaskProvider`s, `configureEach` and configuration creation.
- The umbrellas `detektMain` and `detektTest` are lazy providers, registered on their first `dependsOn` (DetektAndroidPlugin.kt:24-38, 64, 71). The model registers an umbrella exactly when some task is wired under it, after all variant tasks; the source interleaves the two.
- AndroidScenarios.TestPluginScenario: states only that nothing is wired under `detektTest`. DetektAndroidPluginTest.kt:104-106 also looks the task up. With no kept secondary, nothing in DetektAndroidPlugin.kt registers it, so the model does not promise that it exists.
- Only the first error is reported. The model checks every source set for a Kotlin source set before it checks any source-set name for a clash. Gradle stops at whichever comes first in source-set order.
- The order of `afterEvaluate` callbacks is fixed: the source-set tasks are registered before the Android variant tasks. With several clashes, the one reported could differ when Gradle runs the callbacks in the other order.
- Android Gradle Plugin's own checks are not modelled, for example that it refuses the Java plugin in the same project. A project with both Kotlin JVM source sets and Android variants is therefore allowed here.
- AndroidApply.AndroidReportsDir: when the base plugin came first, the Android tasks report into the directory the new `detektAndroid` extension starts with. That default is set in DetektExtension.kt, which is not part of this model, so it is an input.
- The `registerDetektTask` helpers (KotlinExtension.kt, internal/ProjectExt.kt) are not part of this model. They copy extension fields into Gradle properties. A registration here is just the descriptor and its umbrella.
- Duplicate task or extension names are not stated as a freshness precondition. They are modelled as the `Failure` that Gradle's container raises.
- DetektExtension.kt is not part of this model. Only the settings the plugins read or write are modelled: reports directory, tool version, inputs and config.
- The old `detekt` task and the baseline task keep only their inputs, includes and excludes. Their flags, baseline, custom reports directory and reports object are copied from the extension and are not modelled. The same applies to the body of `detektGenerateConfig`.
- `DEFAULT_DETEKT_VERSION` is defined outside the files modelled here, so it is a parameter.
- `setTaskDefaults` and the `detektPlugins` configuration are not modelled. They only wire Gradle configurations into task classpaths.
- Android Gradle Plugin internals are taken as input data. This covers how the flavor × build-type product and the secondary variants are generated.
- The boot classpath, the filesystem and the set of existing files are inputs.
- Naming.Capitalize: upper-cases ASCII letters only, not Kotlin's locale-dependent `capitalize`.
- Gradle `FileCollection`s are modelled as sequences with no de-duplication. Membership statements are unaffected. The order statements rely on this: `AndroidPlugin.AndroidTask`'s classpath ending with the whole boot classpath, and `DetektPlugin.JvmTask`'s starting with the whole compile classpath. Gradle keeps only the first occurrence of a file, so a boot entry that is also on the compile classpath would not appear at the end.
- No task is registered before the plugins are applied. The model has no pre-existing tasks apart from `check`, so the base plugin's own three registrations never clash.
- User changes to the extension after `apply` are not modelled, apart from the ignore lists and settings passed in.
- The analysis engine, config and baseline loading, and report serialisation are not modelled.
- build.gradle.kts and buildSrc/src/main/kotlin/Versions.kt are build metadata and are not modelled.
- AndroidScenarios: the scenarios state the expected dependencies as the task names of the expected unit names, written `TaskNames({...})`, rather than as literal `detektX` strings. Evaluating capitalisation on string literals is too expensive for the verifier.

=== FILE: android_apply.dfy ===
/** `DetektAndroidPlugin.apply` end to end. The Android extension is created
    and the base plugin is applied; when the base plugin was not applied
    before, it reuses the Android extension, so the two share one set of
    settings, among them the reports directory. Once the project is
    evaluated the variant tasks are registered into the container the base
    plugin left, and each umbrella is registered when the first task is
    wired under it. */
module AndroidApply {
  import opened Outcomes
  import opened Naming
  import opened Variants
  import opened AndroidExtension
  import opened Registry
  import opened AndroidPlugin
  import opened DetektPlugin

  /** What the Android side of the build contributes. */
  datatype AndroidInputs = AndroidInputs(
    kotlinAndroidApplied: bool,
    baseExtension: Option<BaseExtension>,
    bootClasspath: seq<Path>)

  /** The outcome of configuration: the base plugin's setup, the generated
      registrations in order, and the resulting task graph. */
  datatype Configured = Configured(setup: Setup, registrations: seq<Registration>, graph: Graph)

  /** The variants the Android extension exposes, when the Android block runs at all. */
  function EnumeratedVariants(android: AndroidInputs): seq<Variant> {
    if !android.kotlinAndroidApplied || android.baseExtension.None? then []
    else VariantsOf(android.baseExtension.value).GetOr([])
  }

  /** The lazily created umbrellas: `detektMain` exists once a task is wired
      under it, and likewise `detektTest`. */
  function UmbrellaNames(anyMain: bool, anyTest: bool): seq<string> {
    (if anyMain then [MainUmbrellaName] else []) + (if anyTest then [TestUmbrellaName] else [])
  }

  /** Every name registered after the base plugin's own tasks, in order: the
      source-set tasks, the planned variant tasks, and the umbrellas that
      receive a dependency. */
  ghost function ConfiguredTaskNames(p: Project, rules: IgnoreRules, android: AndroidInputs): seq<string> {
    var vs := EnumeratedVariants(android);
    JvmTaskNames(p) + (JobTaskNames(Plan(rules, vs)) + UmbrellaNames(KeptMainNames(rules, vs) != {}, KeptTestNames(rules, vs) != {}))
  }

  /** When configuration goes through: `detektAndroid` is a new extension
      name, `detekt` too when the base plugin created it first, every JVM
      source set has a Kotlin source set, and no task name is taken twice. */
  ghost predicate Configurable(p: Project, rules: IgnoreRules, android: AndroidInputs, basePluginFirst: bool) {
    && DetektAndroidExtensionName !in p.extensions
    && (basePluginFirst ==> DetektExtensionName !in p.extensions)
    && SourceSetsHaveKotlin(p)
    && Fresh(BaseTaskNames, ConfiguredTaskNames(p, rules, android))
  }

  /** The base plugin's `getOrCreateExtension` goes through. */
  predicate BaseExtensionCreatable(extensions: map<string, ExtensionValue>) {
    AndroidExtensionReusable(extensions) || DetektExtensionName !in extensions
  }

  /** Where the Android tasks write their reports: the shared
      `<reporting>/detekt` when the base plugin adopts the Android extension,
      and the directory a new extension starts with when the base plugin had
      already been applied and never touches the Android extension. */
  function AndroidReportsDir(p: Project, basePluginFirst: bool): Path {
    if basePluginFirst then p.freshSettings.reportsDir else p.reportingBaseDir + [ReportsSubdirectory]
  }

  /** Create `detektAndroid` and apply the base plugin. When the base plugin
      ran first, it made its own `detekt` extension and the Android extension
      keeps the directory it starts with; otherwise the base plugin adopts
      the Android extension. Both extensions are created while the build
      script runs, so an extension clash is reported before anything the
      source-set registration after evaluation could find. The result is the
      base plugin's setup and the Android extension's settings. */
  function ApplyBasePlugin(p: Project, rules: IgnoreRules, basePluginFirst: bool): (r: Result<(Setup, Settings), Error>)
    ensures r.Success? <==> && DetektAndroidExtensionName !in p.extensions
                            && (basePluginFirst ==> DetektExtensionName !in p.extensions)
                            && SourceSetsHaveKotlin(p) && Fresh(BaseTaskNames, JvmTaskNames(p))
    ensures DetektAndroidExtensionName in p.extensions && (!basePluginFirst || BaseExtensionCreatable(p.extensions))
      ==> r == Failure(DuplicateExtension(DetektAndroidExtensionName))
    ensures basePluginFirst && !BaseExtensionCreatable(p.extensions)
      ==> r == Failure(DuplicateExtension(DetektExtensionName))
    ensures r.Failure? && r.error.DuplicateExtension?
      ==> DetektAndroidExtensionName in p.extensions || (basePluginFirst && DetektExtensionName in p.extensions)
    ensures r.Failure? && !r.error.DuplicateExtension?
      ==> DetektAndroidExtensionName !in p.extensions && (basePluginFirst ==> DetektExtensionName !in p.extensions)
    ensures r.Failure? && r.error == KotlinSourceSetNotFound ==> !SourceSetsHaveKotlin(p)
    ensures r.Failure? && r.error.DuplicateTask? ==> Some(r.error.name) == FirstTaken(BaseTaskNames, JvmTaskNames(p))
    ensures r.Success? ==> r.value.0.extensionName
                           == (if basePluginFirst then DetektExtensionName else DetektAndroidExtensionName)
    ensures r.Success? ==> r.value.0.tasks == BaseTaskNames + Elements(JvmTaskNames(p))
    ensures r.Success? ==> r.value.1.reportsDir == AndroidReportsDir(p, basePluginFirst)
    ensures r.Success? ==> r.value.0.detektTask.name == DetektTaskName
    ensures r.Success? ==> r.value.0.checkDependencies == (if p.hasCheckTask then {DetektTaskName} else {})
  {
    if basePluginFirst then
      if !BaseExtensionCreatable(p.extensions) then Failure(DuplicateExtension(DetektExtensionName))
      else if DetektAndroidExtensionName in p.extensions then Failure(DuplicateExtension(DetektAndroidExtensionName))
      else
        var setup :- Apply(p);
        Success((setup, p.freshSettings))
    else if DetektAndroidExtensionName in p.extensions then
      Failure(DuplicateExtension(DetektAndroidExtensionName))
    else
      var adopted := p.(extensions := p.extensions[DetektAndroidExtensionName := DetektAndroidExtension(p.freshSettings, rules)]);
      assert JvmTaskNames(adopted) == JvmTaskNames(p);
      var setup :- Apply(adopted);
      Success((setup, setup.settings))
  }

  /** The umbrellas the registrations wire tasks under. */
  function WiredUmbrellas(regs: seq<Registration>): seq<string> {
    UmbrellaNames(DependenciesOf(regs, MainTask) != {}, DependenciesOf(regs, TestTask) != {})
  }

  /** The `afterEvaluate` loop of the Android plugin: the variant tasks are
      registered in order, and each umbrella is registered once a task has
      been wired under it. It fails on the first name already taken. */
  method RegisterVariantTasks(registered: set<string>, regs: seq<Registration>) returns (r: Result<Graph, Error>)
    ensures r.Success? <==> Fresh(registered, TaskNamesOf(regs) + WiredUmbrellas(regs))
    ensures r.Failure? ==> r.error.DuplicateTask?
                           && Some(r.error.name) == FirstTaken(registered, TaskNamesOf(regs) + WiredUmbrellas(regs))
    ensures r.Success? ==> r.value.tasks == registered + Elements(TaskNamesOf(regs) + WiredUmbrellas(regs))
    ensures r.Success? ==> r.value.mainDependencies == DependenciesOf(regs, MainTask)
    ensures r.Success? ==> r.value.testDependencies == DependenciesOf(regs, TestTask)
  {
    FirstTakenAppend(registered, TaskNamesOf(regs), WiredUmbrellas(regs));
    var graph :- RegisterAll(registered, regs);
    var umbrellas := UmbrellaNames(graph.mainDependencies != {}, graph.testDependencies != {});
    var taken := FirstTaken(graph.tasks, umbrellas);
    if taken.Some? {
      return Failure(DuplicateTask(taken.value));
    }
    ElementsAppend(TaskNamesOf(regs), umbrellas);
    r := Success(graph.(tasks := graph.tasks + Elements(umbrellas)));
  }

  /** A clash among the source-set tasks is the first clash of the whole
      configuration, since they are registered first. */
  lemma JvmClashComesFirst(p: Project, rules: IgnoreRules, android: AndroidInputs)
    requires FirstTaken(BaseTaskNames, JvmTaskNames(p)).Some?
    ensures FirstTaken(BaseTaskNames, ConfiguredTaskNames(p, rules, android)) == FirstTaken(BaseTaskNames, JvmTaskNames(p))
  {
    var vs := EnumeratedVariants(android);
    FirstTakenAppend(BaseTaskNames, JvmTaskNames(p),
                     JobTaskNames(Plan(rules, vs)) + UmbrellaNames(KeptMainNames(rules, vs) != {}, KeptTestNames(rules, vs) != {}));
  }

  /** Once the source-set tasks went through, registering the variant tasks
      and umbrellas into the container they left checks exactly the rest of
      the configured names. */
  lemma VariantNamesContinue(p: Project, rules: IgnoreRules, android: AndroidInputs, regs: seq<Registration>)
    requires Fresh(BaseTaskNames, JvmTaskNames(p))
    requires TaskNamesOf(regs) == JobTaskNames(Plan(rules, EnumeratedVariants(android)))
    requires DependenciesOf(regs, MainTask) == KeptMainNames(rules, EnumeratedVariants(android))
    requires DependenciesOf(regs, TestTask) == KeptTestNames(rules, EnumeratedVariants(android))
    ensures FirstTaken(BaseTaskNames, ConfiguredTaskNames(p, rules, android))
         == FirstTaken(BaseTaskNames + Elements(JvmTaskNames(p)), TaskNamesOf(regs) + WiredUmbrellas(regs))
    ensures BaseTaskNames + Elements(JvmTaskNames(p)) + Elements(TaskNamesOf(regs) + WiredUmbrellas(regs))
         == BaseTaskNames + Elements(ConfiguredTaskNames(p, rules, android))
  {
    var rest := TaskNamesOf(regs) + WiredUmbrellas(regs);
    assert ConfiguredTaskNames(p, rules, android) == JvmTaskNames(p) + rest;
    FirstTakenAppend(BaseTaskNames, JvmTaskNames(p), rest);
    ElementsAppend(JvmTaskNames(p), rest);
  }

  /** Applying the Android plugin, with `basePluginFirst` telling whether the
      base plugin had already been applied (in which case applying it again
      does nothing). Configuration succeeds exactly when `Configurable`
      holds; a duplicated task is reported under the first name Gradle would
      find taken; `detektMain` and `detektTest` depend on exactly the kept
      primary and kept secondary variants' tasks. */
  method ApplyAndroidPlugin(p: Project, rules: IgnoreRules, android: AndroidInputs, basePluginFirst: bool)
    returns (r: Result<Configured, Error>)
    ensures r.Success? <==> Configurable(p, rules, android, basePluginFirst)
    ensures DetektAndroidExtensionName in p.extensions && (!basePluginFirst || BaseExtensionCreatable(p.extensions))
      ==> r == Failure(DuplicateExtension(DetektAndroidExtensionName))
    ensures basePluginFirst && !BaseExtensionCreatable(p.extensions)
      ==> r == Failure(DuplicateExtension(DetektExtensionName))
    ensures r.Failure? && r.error.DuplicateExtension?
      ==> DetektAndroidExtensionName in p.extensions || (basePluginFirst && DetektExtensionName in p.extensions)
    ensures r.Failure? && !r.error.DuplicateExtension?
      ==> DetektAndroidExtensionName !in p.extensions && (basePluginFirst ==> DetektExtensionName !in p.extensions)
    ensures r.Failure? && r.error == KotlinSourceSetNotFound ==> !SourceSetsHaveKotlin(p)
    ensures r.Failure? && r.error.DuplicateTask?
      ==> Some(r.error.name) == FirstTaken(BaseTaskNames, ConfiguredTaskNames(p, rules, android))
    ensures r.Success? ==> ApplyBasePlugin(p, rules, basePluginFirst).Success?
                           && r.value.setup == ApplyBasePlugin(p, rules, basePluginFirst).value.0
    ensures r.Success? ==> r.value.setup.checkDependencies == (if p.hasCheckTask then {DetektTaskName} else {})
    ensures r.Success? ==> r.value.setup.extensionName
                           == (if basePluginFirst then DetektExtensionName else DetektAndroidExtensionName)
    ensures r.Success? ==> r.value.graph.tasks == BaseTaskNames + Elements(ConfiguredTaskNames(p, rules, android))
    ensures r.Success? ==> r.value.graph.mainDependencies == KeptMainNames(rules, EnumeratedVariants(android))
    ensures r.Success? ==> r.value.graph.testDependencies == KeptTestNames(rules, EnumeratedVariants(android))
    ensures r.Success? ==> r.value.registrations
                           == Registrations(Environment(AndroidReportsDir(p, basePluginFirst), p.existing, android.bootClasspath),
                                            Plan(rules, EnumeratedVariants(android)))
    ensures r.Success? ==> forall i :: 0 <= i < |r.value.registrations| ==>
              ReportUnit(r.value.registrations[i].task.reports.xml, AndroidReportsDir(p, basePluginFirst), XmlExtension).Some?
  {
    var applied := ApplyBasePlugin(p, rules, basePluginFirst);
    if applied.Failure? {
      if applied.error.DuplicateTask? {
        JvmClashComesFirst(p, rules, android);
      }
      return Failure(applied.error);
    }
    var (setup, androidSettings) := applied.value;

    var vs := EnumeratedVariants(android);
    var env := Environment(androidSettings.reportsDir, p.existing, android.bootClasspath);
    var androidRegs := AndroidRegistrations(AndroidProject(android.kotlinAndroidApplied, android.baseExtension, rules, env));
    assert androidRegs == Registrations(env, Plan(rules, vs));
    RegistrationNames(env, Plan(rules, vs));
    DependenciesExact(env, rules, vs);
    VariantNamesContinue(p, rules, android, androidRegs);
    var graph := RegisterVariantTasks(setup.tasks, androidRegs);
    if graph.Failure? {
      return Failure(graph.error);
    }
    r := Success(Configured(setup, androidRegs, graph.value));
  }

  /** Applying the Android plugin applies the base plugin: with nothing in
      the way, the plain `detekt` task exists and `check`, when there is one,
      depends on it. */
  lemma AndroidPluginWiresCheck(p: Project, rules: IgnoreRules)
    requires DetektAndroidExtensionName !in p.extensions
    requires SourceSetsHaveKotlin(p) && Fresh(BaseTaskNames, JvmTaskNames(p))
    ensures ApplyBasePlugin(p, rules, false).Success?
    ensures DetektTaskName in ApplyBasePlugin(p, rules, false).value.0.tasks
    ensures p.hasCheckTask ==> DetektTaskName in ApplyBasePlugin(p, rules, false).value.0.checkDependencies
  {
  }

  /** Where the planned variant tasks and the `detektMain` umbrella sit in
      the configured names: after the source-set tasks, job `k` at offset
      `k`, and the umbrella right after the last job. */
  lemma ConfiguredNamesLayout(p: Project, rules: IgnoreRules, android: AndroidInputs, k: nat)
    requires k < |Plan(rules, EnumeratedVariants(android))|
    requires KeptMainNames(rules, EnumeratedVariants(android)) != {}
    ensures |JvmTaskNames(p)| + |Plan(rules, EnumeratedVariants(android))| < |ConfiguredTaskNames(p, rules, android)|
    ensures ConfiguredTaskNames(p, rules, android)[|JvmTaskNames(p)| + k]
         == TaskName(Plan(rules, EnumeratedVariants(android))[k].variant.name)
    ensures ConfiguredTaskNames(p, rules, android)[|JvmTaskNames(p)| + |Plan(rules, EnumeratedVariants(android))|]
         == MainUmbrellaName
  {
    var vs := EnumeratedVariants(android);
    var jobNames := JobTaskNames(Plan(rules, vs));
    var rest := jobNames + UmbrellaNames(true, KeptTestNames(rules, vs) != {});
    assert ConfiguredTaskNames(p, rules, android) == JvmTaskNames(p) + rest;
    assert rest[k] == jobNames[k];
    assert rest[|jobNames|] == MainUmbrellaName;
  }

  /** A kept variant named `main` asks for the task `detektMain`, which is
      also the name of the umbrella wired above it, so configuration fails. */
  lemma VariantNamedMainClashes(p: Project, rules: IgnoreRules, android: AndroidInputs, basePluginFirst: bool, v: Variant)
    requires v in EnumeratedVariants(android) && !Ignored(rules, v) && v.name == "main"
    ensures !Configurable(p, rules, android, basePluginFirst)
  {
    var vs := EnumeratedVariants(android);
    var jobs := Plan(rules, vs);
    JvmTaskNamesOfStandardSourceSets();
    assert TaskName(v.name) in KeptMainNames(rules, vs);
    assert Job(MainTask, v) in jobs;
    var k :| 0 <= k < |jobs| && jobs[k] == Job(MainTask, v);
    MainJobClashesWithUmbrella(p, rules, android, k);
  }

  /** A planned task that is itself named `detektMain` is registered twice:
      once for its variant and once as the umbrella above it. */
  lemma MainJobClashesWithUmbrella(p: Project, rules: IgnoreRules, android: AndroidInputs, k: nat)
    requires k < |Plan(rules, EnumeratedVariants(android))|
    requires TaskName(Plan(rules, EnumeratedVariants(android))[k].variant.name) == MainUmbrellaName
    requires KeptMainNames(rules, EnumeratedVariants(android)) != {}
    ensures !Fresh(BaseTaskNames, ConfiguredTaskNames(p, rules, android))
  {
    ConfiguredNamesLayout(p, rules, android, k);
    var names := ConfiguredTaskNames(p, rules, android);
    var i, j := |JvmTaskNames(p)| + k, |JvmTaskNames(p)| + |Plan(rules, EnumeratedVariants(android))|;
    assert names[i] == MainUmbrellaName == names[j];
    RepeatedNameNotFresh(BaseTaskNames, names, i, j);
  }

  /** A JVM source set named `main` gets the task `detektMain`; once a kept
      variant wires a task under the Android umbrella of the same name,
      configuration fails. */
  lemma SourceSetNamedMainClashes(p: Project, rules: IgnoreRules, android: AndroidInputs, basePluginFirst: bool, i: nat, v: Variant)
    requires p.kotlinJvmApplied && i < |p.sourceSets| && p.sourceSets[i].name == "main"
    requires v in EnumeratedVariants(android) && !Ignored(rules, v)
    ensures !Configurable(p, rules, android, basePluginFirst)
  {
    var vs := EnumeratedVariants(android);
    var jobs := Plan(rules, vs);
    JvmTaskNamesOfStandardSourceSets();
    assert TaskName(v.name) in KeptMainNames(rules, vs);
    var names := ConfiguredTaskNames(p, rules, android);
    var offset := |JvmTaskNames(p)|;
    assert names[i] == MainUmbrellaName;
    assert names[offset + |jobs|] == MainUmbrellaName;
    RepeatedNameNotFresh(BaseTaskNames, names, i, offset + |jobs|);
  }
}

=== FILE: android_extension.dfy ===
/** The three ignore lists of `DetektAndroidExtension`
    (DetektAndroidExtension.kt) and the ignore predicate
    `matchesIgnoredConfiguration` (DetektAndroidPlugin.kt). */
module AndroidExtension {
  import opened Variants

  /** The user's ignore lists, in the order written. */
  datatype IgnoreRules = IgnoreRules(
    ignoredVariants: seq<string>,
    ignoredBuildTypes: seq<string>,
    ignoredFlavors: seq<string>)

  /** All three lists default to empty. */
  const DefaultRules: IgnoreRules := IgnoreRules([], [], [])

  /** `matchesIgnoredConfiguration`: any single match ignores the variant. */
  predicate Ignored(rules: IgnoreRules, v: Variant) {
    || v.name in rules.ignoredVariants
    || v.buildTypeName in rules.ignoredBuildTypes
    || v.flavorName in rules.ignoredFlavors
  }

  /** An independent reading of the ignore lists: a set of tagged keys. A
      variant is ignored when it shares a key with the rules. */
  datatype IgnoreKey = ByName(name: string) | ByBuildType(buildType: string) | ByFlavor(flavor: string)

  function RuleKeys(rules: IgnoreRules): set<IgnoreKey> {
    (set s | s in rules.ignoredVariants :: ByName(s))
    + (set s | s in rules.ignoredBuildTypes :: ByBuildType(s))
    + (set s | s in rules.ignoredFlavors :: ByFlavor(s))
  }

  function VariantKeys(v: Variant): set<IgnoreKey> {
    {ByName(v.name), ByBuildType(v.buildTypeName), ByFlavor(v.flavorName)}
  }

  /** `stronger` ignores by every entry `weaker` does (and maybe more). */
  predicate Covers(weaker: IgnoreRules, stronger: IgnoreRules) {
    && (forall s :: s in weaker.ignoredVariants ==> s in stronger.ignoredVariants)
    && (forall s :: s in weaker.ignoredBuildTypes ==> s in stronger.ignoredBuildTypes)
    && (forall s :: s in weaker.ignoredFlavors ==> s in stronger.ignoredFlavors)
  }

  /** Adding one entry to one of the lists. */
  function AddIgnoredVariant(rules: IgnoreRules, s: string): IgnoreRules {
    rules.(ignoredVariants := rules.ignoredVariants + [s])
  }

  function AddIgnoredBuildType(rules: IgnoreRules, s: string): IgnoreRules {
    rules.(ignoredBuildTypes := rules.ignoredBuildTypes + [s])
  }

  function AddIgnoredFlavor(rules: IgnoreRules, s: string): IgnoreRules {
    rules.(ignoredFlavors := rules.ignoredFlavors + [s])
  }

  /** The ignore predicate is a disjunction: a variant is ignored exactly when
      one of its name, build type or flavor is listed in the matching list. */
  lemma IgnoredIffSharedKey(rules: IgnoreRules, v: Variant)
    ensures Ignored(rules, v) <==> RuleKeys(rules) * VariantKeys(v) != {}
  {
    if v.name in rules.ignoredVariants {
      assert ByName(v.name) in RuleKeys(rules) * VariantKeys(v);
    } else if v.buildTypeName in rules.ignoredBuildTypes {
      assert ByBuildType(v.buildTypeName) in RuleKeys(rules) * VariantKeys(v);
    } else if v.flavorName in rules.ignoredFlavors {
      assert ByFlavor(v.flavorName) in RuleKeys(rules) * VariantKeys(v);
    } else {
      forall k | k in VariantKeys(v) ensures k !in RuleKeys(rules) {
      }
    }
  }

  /** Covering is key inclusion. */
  lemma CoversIffKeySubset(weaker: IgnoreRules, stronger: IgnoreRules)
    ensures Covers(weaker, stronger) <==> RuleKeys(weaker) <= RuleKeys(stronger)
  {
    if RuleKeys(weaker) <= RuleKeys(stronger) {
      forall s | s in weaker.ignoredVariants ensures s in stronger.ignoredVariants {
        assert ByName(s) in RuleKeys(weaker);
      }
      forall s | s in weaker.ignoredBuildTypes ensures s in stronger.ignoredBuildTypes {
        assert ByBuildType(s) in RuleKeys(weaker);
      }
      forall s | s in weaker.ignoredFlavors ensures s in stronger.ignoredFlavors {
        assert ByFlavor(s) in RuleKeys(weaker);
      }
    }
  }

  /** Monotonicity: ignoring more never turns an ignored variant into a kept one. */
  lemma IgnoredMonotone(weaker: IgnoreRules, stronger: IgnoreRules, v: Variant)
    requires Covers(weaker, stronger)
    ensures Ignored(weaker, v) ==> Ignored(stronger, v)
  {
    IgnoredIffSharedKey(weaker, v);
    IgnoredIffSharedKey(stronger, v);
    CoversIffKeySubset(weaker, stronger);
  }

  /** Adding an entry to any list only strengthens the rules, and each added
      entry on its own ignores exactly the variants it names. */
  lemma AddingCovers(rules: IgnoreRules, s: string, v: Variant)
    ensures Covers(rules, AddIgnoredVariant(rules, s))
    ensures Covers(rules, AddIgnoredBuildType(rules, s))
    ensures Covers(rules, AddIgnoredFlavor(rules, s))
    ensures Ignored(AddIgnoredVariant(rules, s), v) <==> Ignored(rules, v) || v.name == s
    ensures Ignored(AddIgnoredBuildType(rules, s), v) <==> Ignored(rules, v) || v.buildTypeName == s
    ensures Ignored(AddIgnoredFlavor(rules, s), v) <==> Ignored(rules, v) || v.flavorName == s
  {
  }

  /** With the default (empty) lists nothing is ignored. */
  lemma DefaultRulesIgnoreNothing(v: Variant)
    ensures !Ignored(DefaultRules, v)
    ensures RuleKeys(DefaultRules) == {}
  {
  }
}

=== FILE: android_plugin.dfy ===
/** The variant-to-task resolution of DetektAndroidPlugin.kt, run once after
    the project has been evaluated: every variant of the Android extension
    that the ignore rules keep gets a task wired under `detektMain`, and each
    of its secondary variants that the same rules keep gets a task wired
    under `detektTest`. */
module AndroidPlugin {
  import opened Outcomes
  import opened Naming
  import opened Variants
  import opened AndroidExtension
  import opened Registry

  /** One call of `registerAndroidDetektTask`, before its descriptor is built. */
  datatype Job = Job(category: Category, variant: Variant)

  /** What every generated Android task shares: the reports directory of the
      extension, the file-system snapshot, and the boot classpath. */
  datatype Environment = Environment(reportsDir: Path, existing: set<Path>, bootClasspath: seq<Path>)

  /** The inputs read in the `afterEvaluate` block. */
  datatype AndroidProject = AndroidProject(
    kotlinAndroidApplied: bool,
    baseExtension: Option<BaseExtension>,
    rules: IgnoreRules,
    env: Environment)

  /** A secondary variant that gets a task: it belongs to a kept primary and
      is kept by the same rules on its own fields. */
  ghost predicate KeptSecondary(rules: IgnoreRules, vs: seq<Variant>, t: Variant) {
    && !Ignored(rules, t)
    && exists v :: v in vs && !Ignored(rules, v) && t in TestVariants(v)
  }

  /** The inner loop: secondaries re-checked one by one. */
  function SecondaryJobs(rules: IgnoreRules, ts: seq<Variant>): (r: seq<Job>)
    ensures forall j :: j in r <==> j.category == TestTask && j.variant in ts && !Ignored(rules, j.variant)
  {
    if ts == [] then []
    else (if Ignored(rules, ts[0]) then [] else [Job(TestTask, ts[0])]) + SecondaryJobs(rules, ts[1..])
  }

  /** The body run for one variant: nothing at all when it is ignored,
      otherwise its own task first, then its kept secondaries. */
  function VariantJobs(rules: IgnoreRules, v: Variant): (r: seq<Job>)
    ensures Ignored(rules, v) ==> r == []
    ensures !Ignored(rules, v) ==> |r| > 0 && r[0] == Job(MainTask, v)
    ensures !Ignored(rules, v) ==> forall j :: j in r[1..] <==>
      j.category == TestTask && j.variant in TestVariants(v) && !Ignored(rules, j.variant)
  {
    if Ignored(rules, v) then [] else [Job(MainTask, v)] + SecondaryJobs(rules, TestVariants(v))
  }

  /** The outer `matching { … }.all { … }` loop over the variant collection. */
  function Plan(rules: IgnoreRules, vs: seq<Variant>): (r: seq<Job>)
    ensures forall v :: Job(MainTask, v) in r <==> v in vs && !Ignored(rules, v)
    ensures forall t :: Job(TestTask, t) in r <==> KeptSecondary(rules, vs, t)
    ensures forall j :: j in r ==> j.category != Ungrouped
  {
    if vs == [] then []
    else
      var rest := Plan(rules, vs[1..]);
      var r := VariantJobs(rules, vs[0]) + rest;
      forall j | j in VariantJobs(rules, vs[0]) ensures j.category != Ungrouped {
        var w := VariantJobs(rules, vs[0]);
        if j != w[0] {
          assert j in w[1..];
        }
      }
      forall t | Job(TestTask, t) in r ensures KeptSecondary(rules, vs, t) {
        if Job(TestTask, t) in rest {
          var v :| v in vs[1..] && !Ignored(rules, v) && t in TestVariants(v);
          assert v in vs;
        } else {
          assert Job(TestTask, t) in VariantJobs(rules, vs[0])[1..];
        }
      }
      forall t | KeptSecondary(rules, vs, t) ensures Job(TestTask, t) in r {
        var v :| v in vs && !Ignored(rules, v) && t in TestVariants(v);
        if v == vs[0] {
          assert Job(TestTask, t) in VariantJobs(rules, vs[0])[1..];
        } else {
          assert v in vs[1..];
        }
      }
      r
  }

  /** `registerAndroidDetektTask`: the task is named after the variant, its
      reports are named after the raw variant name, its source is the
      variant's Java directories, and its classpath is the existing compile
      classpath entries followed by the whole boot classpath. */
  function AndroidTask(env: Environment, v: Variant): (d: Descriptor)
    ensures d.taskName == TaskName(v.name)
    ensures ReportUnit(d.reports.xml, env.reportsDir, XmlExtension) == Some(v.name)
    ensures ReportUnit(d.reports.html, env.reportsDir, HtmlExtension) == Some(v.name)
    ensures ReportUnit(d.reports.txt, env.reportsDir, TxtExtension) == Some(v.name)
    ensures forall p :: p in d.sources <==> exists g :: g in v.javaDirectories && p in g
    ensures forall p :: p in d.classpath <==> (p in v.compileClasspath && p in env.existing) || p in env.bootClasspath
    ensures |d.classpath| >= |env.bootClasspath| && d.classpath[|d.classpath| - |env.bootClasspath|..] == env.bootClasspath
  {
    UnitDescriptor(v.name, Flatten(v.javaDirectories),
                   KeepExisting(env.existing, v.compileClasspath) + env.bootClasspath, env.reportsDir)
  }

  function Registrations(env: Environment, jobs: seq<Job>): (r: seq<Registration>)
    ensures |r| == |jobs|
    ensures forall i :: 0 <= i < |jobs| ==> r[i] == Registration(jobs[i].category, AndroidTask(env, jobs[i].variant))
  {
    seq(|jobs|, i requires 0 <= i < |jobs| => Registration(jobs[i].category, AndroidTask(env, jobs[i].variant)))
  }

  /** The names the planned jobs' tasks are registered under, in order. */
  function JobTaskNames(jobs: seq<Job>): seq<string> {
    seq(|jobs|, i requires 0 <= i < |jobs| => TaskName(jobs[i].variant.name))
  }

  /** Each registration is named after its job's variant. */
  lemma RegistrationNames(env: Environment, jobs: seq<Job>)
    ensures TaskNamesOf(Registrations(env, jobs)) == JobTaskNames(jobs)
  {
  }

  /** The whole `registerDetektTasks` block: nothing happens unless the
      `kotlin-android` plugin is applied and an Android extension of a
      recognised kind is present. */
  function AndroidRegistrations(p: AndroidProject): seq<Registration> {
    if !p.kotlinAndroidApplied || p.baseExtension.None? then []
    else match VariantsOf(p.baseExtension.value)
      case None => []
      case Some(vs) => Registrations(p.env, Plan(p.rules, vs))
  }

  /** The reference definition of `detektMain`'s dependencies: the task names
      of the kept primary variants. */
  ghost function KeptMainNames(rules: IgnoreRules, vs: seq<Variant>): set<string> {
    set v | v in vs && !Ignored(rules, v) :: TaskName(v.name)
  }

  /** The reference definition of `detektTest`'s dependencies: the task names
      of the kept secondaries of kept primaries. */
  ghost function KeptTestNames(rules: IgnoreRules, vs: seq<Variant>): set<string> {
    set v, t | v in vs && !Ignored(rules, v) && t in TestVariants(v) && !Ignored(rules, t) :: TaskName(t.name)
  }

  /** The planned jobs as registered: job `i` becomes registration `i`. */
  lemma RegistrationOfJob(env: Environment, jobs: seq<Job>, c: Category, n: string)
    ensures n in DependenciesOf(Registrations(env, jobs), c)
        <==> exists v :: Job(c, v) in jobs && TaskName(v.name) == n
  {
    var regs := Registrations(env, jobs);
    if n in DependenciesOf(regs, c) {
      var i :| 0 <= i < |regs| && regs[i].category == c && regs[i].task.taskName == n;
      assert jobs[i] == Job(c, jobs[i].variant);
      assert jobs[i] in jobs;
    }
    if exists v :: Job(c, v) in jobs && TaskName(v.name) == n {
      var v :| Job(c, v) in jobs && TaskName(v.name) == n;
      var i :| 0 <= i < |jobs| && jobs[i] == Job(c, v);
      assert regs[i].task.taskName == n;
    }
  }

  /** Main dependencies are exactly the kept primaries' task names. */
  lemma MainDependenciesExact(env: Environment, rules: IgnoreRules, vs: seq<Variant>)
    ensures DependenciesOf(Registrations(env, Plan(rules, vs)), MainTask) == KeptMainNames(rules, vs)
  {
    var jobs := Plan(rules, vs);
    forall n ensures n in DependenciesOf(Registrations(env, jobs), MainTask) <==> n in KeptMainNames(rules, vs) {
      RegistrationOfJob(env, jobs, MainTask, n);
    }
  }

  /** Test dependencies are exactly the kept secondaries' task names. */
  lemma TestDependenciesExact(env: Environment, rules: IgnoreRules, vs: seq<Variant>)
    ensures DependenciesOf(Registrations(env, Plan(rules, vs)), TestTask) == KeptTestNames(rules, vs)
  {
    var jobs := Plan(rules, vs);
    forall n ensures n in DependenciesOf(Registrations(env, jobs), TestTask) <==> n in KeptTestNames(rules, vs) {
      RegistrationOfJob(env, jobs, TestTask, n);
      if n in KeptTestNames(rules, vs) {
        var v, t :| v in vs && !Ignored(rules, v) && t in TestVariants(v) && !Ignored(rules, t) && n == TaskName(t.name);
        assert KeptSecondary(rules, vs, t);
        assert Job(TestTask, t) in jobs;
      }
      if n in DependenciesOf(Registrations(env, jobs), TestTask) {
        var t :| Job(TestTask, t) in jobs && TaskName(t.name) == n;
        assert KeptSecondary(rules, vs, t);
      }
    }
  }

  /** Both dependency sets at once. */
  lemma DependenciesExact(env: Environment, rules: IgnoreRules, vs: seq<Variant>)
    ensures DependenciesOf(Registrations(env, Plan(rules, vs)), MainTask) == KeptMainNames(rules, vs)
    ensures DependenciesOf(Registrations(env, Plan(rules, vs)), TestTask) == KeptTestNames(rules, vs)
  {
    MainDependenciesExact(env, rules, vs);
    TestDependenciesExact(env, rules, vs);
  }

  /** Without `kotlin-android`, without an Android extension, or with an
      unrecognised extension kind, no task is registered at all. */
  lemma NoVariantsNoTasks(p: AndroidProject)
    requires !p.kotlinAndroidApplied || p.baseExtension.None? || p.baseExtension.value.OtherExtension?
    ensures AndroidRegistrations(p) == []
  {
  }

  /** Plans of a concatenated enumeration concatenate. */
  lemma {:induction false} PlanAppend(rules: IgnoreRules, a: seq<Variant>, b: seq<Variant>)
    ensures Plan(rules, a + b) == Plan(rules, a) + Plan(rules, b)
  {
    if a == [] {
      assert a + b == b;
    } else {
      assert (a + b)[1..] == a[1..] + b;
      PlanAppend(rules, a[1..], b);
    }
  }

  /** An ignored primary contributes nothing: no task of its own and none of
      its secondaries are visited. The plan is the same as if the variant had
      not been enumerated at all. */
  lemma IgnoredPrimaryContributesNothing(rules: IgnoreRules, vs: seq<Variant>, i: nat)
    requires i < |vs| && Ignored(rules, vs[i])
    ensures Plan(rules, vs) == Plan(rules, vs[..i] + vs[i + 1..])
  {
    var pre, post := vs[..i], vs[i + 1..];
    assert Plan(rules, [vs[i]]) == [] by {
      assert [vs[i]][1..] == [];
    }
    calc {
      Plan(rules, vs);
      { assert vs == pre + ([vs[i]] + post); }
      Plan(rules, pre + ([vs[i]] + post));
      { PlanAppend(rules, pre, [vs[i]] + post); }
      Plan(rules, pre) + Plan(rules, [vs[i]] + post);
      { PlanAppend(rules, [vs[i]], post); }
      Plan(rules, pre) + (Plan(rules, [vs[i]]) + Plan(rules, post));
      { assert Plan(rules, [vs[i]]) + Plan(rules, post) == Plan(rules, post); }
      Plan(rules, pre) + Plan(rules, post);
      { PlanAppend(rules, pre, post); }
      Plan(rules, pre + post);
    }
  }

  /** Monotonicity of the whole resolution: with rules that ignore more, every
      planned task was already planned, so both dependency sets can only shrink. */
  lemma PlanMonotone(weaker: IgnoreRules, stronger: IgnoreRules, env: Environment, vs: seq<Variant>)
    requires Covers(weaker, stronger)
    ensures forall j :: j in Plan(stronger, vs) ==> j in Plan(weaker, vs)
    ensures DependenciesOf(Registrations(env, Plan(stronger, vs)), MainTask)
         <= DependenciesOf(Registrations(env, Plan(weaker, vs)), MainTask)
    ensures DependenciesOf(Registrations(env, Plan(stronger, vs)), TestTask)
         <= DependenciesOf(Registrations(env, Plan(weaker, vs)), TestTask)
  {
    forall v ensures Ignored(weaker, v) ==> Ignored(stronger, v) {
      IgnoredMonotone(weaker, stronger, v);
    }
    forall j | j in Plan(stronger, vs) ensures j in Plan(weaker, vs) {
      if j.category == TestTask {
        assert KeptSecondary(stronger, vs, j.variant);
        var v :| v in vs && !Ignored(stronger, v) && j.variant in TestVariants(v);
        assert KeptSecondary(weaker, vs, j.variant);
      }
    }
    DependenciesExact(env, weaker, vs);
    DependenciesExact(env, stronger, vs);
  }

  /** With the default (empty) ignore lists every primary and every secondary
      variant gets a task. */
  lemma DefaultRulesKeepEverything(env: Environment, vs: seq<Variant>)
    ensures DependenciesOf(Registrations(env, Plan(DefaultRules, vs)), MainTask)
         == set v | v in vs :: TaskName(v.name)
    ensures DependenciesOf(Registrations(env, Plan(DefaultRules, vs)), TestTask)
         == set v, t | v in vs && t in TestVariants(v) :: TaskName(t.name)
  {
    DependenciesExact(env, DefaultRules, vs);
    forall v ensures !Ignored(DefaultRules, v) {
      DefaultRulesIgnoreNothing(v);
    }
  }

  /** Ignoring the name of a secondary variant never removes a main task,
      provided no primary variant carries that name. */
  lemma IgnoringSecondaryKeepsMain(rules: IgnoreRules, env: Environment, vs: seq<Variant>, t: Variant)
    requires forall v :: v in vs ==> v.name != t.name
    ensures DependenciesOf(Registrations(env, Plan(AddIgnoredVariant(rules, t.name), vs)), MainTask)
         == DependenciesOf(Registrations(env, Plan(rules, vs)), MainTask)
  {
    var rules' := AddIgnoredVariant(rules, t.name);
    forall v | v in vs ensures Ignored(rules', v) <==> Ignored(rules, v) {
      AddingCovers(rules, t.name, v);
    }
    DependenciesExact(env, rules, vs);
    DependenciesExact(env, rules', vs);
  }

  /** The result does not depend on the order (or repetition) in which the
      Android plugin enumerates variants. */
  lemma OrderIndependent(rules: IgnoreRules, env: Environment, vs: seq<Variant>, ws: seq<Variant>)
    requires forall v :: v in vs <==> v in ws
    ensures DependenciesOf(Registrations(env, Plan(rules, vs)), MainTask)
         == DependenciesOf(Registrations(env, Plan(rules, ws)), MainTask)
    ensures DependenciesOf(Registrations(env, Plan(rules, vs)), TestTask)
         == DependenciesOf(Registrations(env, Plan(rules, ws)), TestTask)
  {
    DependenciesExact(env, rules, vs);
    DependenciesExact(env, rules, ws);
  }
}

=== FILE: android_scenarios.dfy ===
/** The scenarios of DetektAndroidPluginTest.kt as concrete lemmas: a library
    with flavor dimensions age (young, old) and name (harry, sally) and build
    types debug and release. Every variant has a unit-test variant; only
    debug variants have an instrumentation (AndroidTest) variant. Secondary
    variants carry their primary's build type and flavor. */
module AndroidScenarios {
  import opened Outcomes
  import opened Naming
  import opened Variants
  import opened AndroidExtension
  import opened Registry
  import opened AndroidPlugin

  function Secondary(name: string, buildType: string, flavor: string): Variant {
    Variant(name, buildType, flavor, [], [], NotTested)
  }

  function DebugVariant(flavor: string, name: string, androidTest: string, unitTest: string): Variant {
    Variant(name, "debug", flavor, [], [],
            Tested(Some(Secondary(androidTest, "debug", flavor)), Some(Secondary(unitTest, "debug", flavor))))
  }

  function ReleaseVariant(flavor: string, name: string, unitTest: string): Variant {
    Variant(name, "release", flavor, [], [], Tested(None, Some(Secondary(unitTest, "release", flavor))))
  }

  const YoungHarryDebug: Variant := DebugVariant("youngHarry", "youngHarryDebug", "youngHarryDebugAndroidTest", "youngHarryDebugUnitTest")
  const YoungHarryRelease: Variant := ReleaseVariant("youngHarry", "youngHarryRelease", "youngHarryReleaseUnitTest")
  const OldHarryDebug: Variant := DebugVariant("oldHarry", "oldHarryDebug", "oldHarryDebugAndroidTest", "oldHarryDebugUnitTest")
  const OldHarryRelease: Variant := ReleaseVariant("oldHarry", "oldHarryRelease", "oldHarryReleaseUnitTest")
  const YoungSallyDebug: Variant := DebugVariant("youngSally", "youngSallyDebug", "youngSallyDebugAndroidTest", "youngSallyDebugUnitTest")
  const YoungSallyRelease: Variant := ReleaseVariant("youngSally", "youngSallyRelease", "youngSallyReleaseUnitTest")
  const OldSallyDebug: Variant := DebugVariant("oldSally", "oldSallyDebug", "oldSallyDebugAndroidTest", "oldSallyDebugUnitTest")
  const OldSallyRelease: Variant := ReleaseVariant("oldSally", "oldSallyRelease", "oldSallyReleaseUnitTest")

  /** The eight variants of the flavor matrix. */
  const FlavorMatrix: seq<Variant> := [
    YoungHarryDebug, YoungHarryRelease, OldHarryDebug, OldHarryRelease,
    YoungSallyDebug, YoungSallyRelease, OldSallyDebug, OldSallyRelease]

  /** The ignore lists of the three filtering scenarios. */
  const IgnoreTwoVariants: IgnoreRules := IgnoreRules(["youngHarryDebug", "oldSallyRelease"], [], [])
  const IgnoreRelease: IgnoreRules := IgnoreRules([], ["release"], [])
  const IgnoreTwoFlavors: IgnoreRules := IgnoreRules([], [], ["oldHarry", "youngSally"])

  /** The scenarios look only at task names, which do not depend on the environment. */
  const Env: Environment := Environment(["build", "reports", "detekt"], {}, [])

  /** What `detektMain` and `detektTest` depend on after filtering `vs`. */
  function MainDeps(rules: IgnoreRules, vs: seq<Variant>): set<string> {
    DependenciesOf(Registrations(Env, Plan(rules, vs)), MainTask)
  }

  function TestDeps(rules: IgnoreRules, vs: seq<Variant>): set<string> {
    DependenciesOf(Registrations(Env, Plan(rules, vs)), TestTask)
  }

  /** The unit names behind `KeptMainNames` and `KeptTestNames`. */
  ghost function KeptPrimaryNames(rules: IgnoreRules, vs: seq<Variant>): set<string> {
    set v | v in vs && !Ignored(rules, v) :: v.name
  }

  ghost function KeptSecondaryNamesOf(rules: IgnoreRules, v: Variant): set<string> {
    set t | t in TestVariants(v) && !Ignored(rules, t) :: t.name
  }

  ghost function KeptSecondaryNames(rules: IgnoreRules, vs: seq<Variant>): set<string> {
    set v, t | v in vs && !Ignored(rules, v) && t in TestVariants(v) && !Ignored(rules, t) :: t.name
  }

  /** One primary's contribution to each umbrella. */
  function KeptPrimaryNameOf(rules: IgnoreRules, v: Variant): set<string> {
    if Ignored(rules, v) then {} else {v.name}
  }

  function KeptTestNamesOfPrimary(rules: IgnoreRules, v: Variant): set<string> {
    if Ignored(rules, v) then {} else PrimaryNameUnion(rules, TestVariants(v))
  }

  /** The kept names of a variant enumeration, one variant at a time. */
  function PrimaryNameUnion(rules: IgnoreRules, vs: seq<Variant>): set<string> {
    if vs == [] then {} else KeptPrimaryNameOf(rules, vs[0]) + PrimaryNameUnion(rules, vs[1..])
  }

  function SecondaryNameUnion(rules: IgnoreRules, vs: seq<Variant>): set<string> {
    if vs == [] then {} else KeptTestNamesOfPrimary(rules, vs[0]) + SecondaryNameUnion(rules, vs[1..])
  }

  /** The kept names of an enumeration with one more variant in front. */
  lemma KeptNamesCons(rules: IgnoreRules, v: Variant, vs: seq<Variant>)
    ensures KeptPrimaryNames(rules, [v] + vs) == KeptPrimaryNameOf(rules, v) + KeptPrimaryNames(rules, vs)
    ensures KeptSecondaryNames(rules, [v] + vs)
         == (if Ignored(rules, v) then {} else KeptSecondaryNamesOf(rules, v)) + KeptSecondaryNames(rules, vs)
  {
    var ws := [v] + vs;
    forall n | n in KeptSecondaryNames(rules, ws)
      ensures n in (if Ignored(rules, v) then {} else KeptSecondaryNamesOf(rules, v)) + KeptSecondaryNames(rules, vs)
    {
      var w, t :| w in ws && !Ignored(rules, w) && t in TestVariants(w) && !Ignored(rules, t) && n == t.name;
      if w != v {
        assert w in vs;
      }
    }
  }

  /** The variant-by-variant unions agree with the comprehensions. */
  lemma {:induction false} PrimaryUnionIsKeptNames(rules: IgnoreRules, vs: seq<Variant>)
    ensures PrimaryNameUnion(rules, vs) == KeptPrimaryNames(rules, vs)
  {
    if vs != [] {
      PrimaryUnionIsKeptNames(rules, vs[1..]);
      KeptNamesCons(rules, vs[0], vs[1..]);
      assert vs == [vs[0]] + vs[1..];
    }
  }

  lemma {:induction false} NameUnionsAreKeptNames(rules: IgnoreRules, vs: seq<Variant>)
    ensures PrimaryNameUnion(rules, vs) == KeptPrimaryNames(rules, vs)
    ensures SecondaryNameUnion(rules, vs) == KeptSecondaryNames(rules, vs)
  {
    PrimaryUnionIsKeptNames(rules, vs);
    if vs != [] {
      NameUnionsAreKeptNames(rules, vs[1..]);
      PrimaryUnionIsKeptNames(rules, TestVariants(vs[0]));
      KeptNamesCons(rules, vs[0], vs[1..]);
      assert vs == [vs[0]] + vs[1..];
    }
  }

  /** The task names of a set of unit names. */
  function TaskNames(names: set<string>): (r: set<string>)
    ensures forall n :: n in names ==> TaskName(n) in r
    ensures forall m :: m in r ==> exists n :: n in names && m == TaskName(n)
  {
    set n | n in names :: TaskName(n)
  }

  /** Both umbrellas' dependencies, computed one variant at a time. */
  lemma DependenciesViaUnions(rules: IgnoreRules, vs: seq<Variant>)
    ensures MainDeps(rules, vs) == TaskNames(PrimaryNameUnion(rules, vs))
    ensures TestDeps(rules, vs) == TaskNames(SecondaryNameUnion(rules, vs))
  {
    DependenciesExact(Env, rules, vs);
    NameUnionsAreKeptNames(rules, vs);
    forall m | m in KeptMainNames(rules, vs) ensures m in set n | n in KeptPrimaryNames(rules, vs) :: TaskName(n) {
      var v :| v in vs && !Ignored(rules, v) && m == TaskName(v.name);
      assert v.name in KeptPrimaryNames(rules, vs);
    }
    forall m | m in KeptTestNames(rules, vs) ensures m in set n | n in KeptSecondaryNames(rules, vs) :: TaskName(n) {
      var v, t :| v in vs && !Ignored(rules, v) && t in TestVariants(v) && !Ignored(rules, t) && m == TaskName(t.name);
      assert t.name in KeptSecondaryNames(rules, vs);
    }
  }

  /** The name unions of an eight-variant enumeration, spelled out. */
  lemma EightPrimaries(rules: IgnoreRules, a: Variant, b: Variant, c: Variant, d: Variant, e: Variant, f: Variant, g: Variant, h: Variant)
    ensures PrimaryNameUnion(rules, [a, b, c, d, e, f, g, h]) ==
      KeptPrimaryNameOf(rules, a) + (KeptPrimaryNameOf(rules, b) + (KeptPrimaryNameOf(rules, c) + (KeptPrimaryNameOf(rules, d) +
      (KeptPrimaryNameOf(rules, e) + (KeptPrimaryNameOf(rules, f) + (KeptPrimaryNameOf(rules, g) + KeptPrimaryNameOf(rules, h)))))))
  {
    var m := [a, b, c, d, e, f, g, h];
    assert m[8..] == [];
    assert PrimaryNameUnion(rules, m[7..]) == KeptPrimaryNameOf(rules, m[7]) + PrimaryNameUnion(rules, m[8..]);
    assert PrimaryNameUnion(rules, m[6..]) == KeptPrimaryNameOf(rules, m[6]) + PrimaryNameUnion(rules, m[7..]);
    assert PrimaryNameUnion(rules, m[5..]) == KeptPrimaryNameOf(rules, m[5]) + PrimaryNameUnion(rules, m[6..]);
    assert PrimaryNameUnion(rules, m[4..]) == KeptPrimaryNameOf(rules, m[4]) + PrimaryNameUnion(rules, m[5..]);
    assert PrimaryNameUnion(rules, m[3..]) == KeptPrimaryNameOf(rules, m[3]) + PrimaryNameUnion(rules, m[4..]);
    assert PrimaryNameUnion(rules, m[2..]) == KeptPrimaryNameOf(rules, m[2]) + PrimaryNameUnion(rules, m[3..]);
    assert PrimaryNameUnion(rules, m[1..]) == KeptPrimaryNameOf(rules, m[1]) + PrimaryNameUnion(rules, m[2..]);
    assert PrimaryNameUnion(rules, m[0..]) == KeptPrimaryNameOf(rules, m[0]) + PrimaryNameUnion(rules, m[1..]);
  }

  lemma EightSecondaries(rules: IgnoreRules, a: Variant, b: Variant, c: Variant, d: Variant, e: Variant, f: Variant, g: Variant, h: Variant)
    ensures SecondaryNameUnion(rules, [a, b, c, d, e, f, g, h]) ==
      (KeptTestNamesOfPrimary(rules, a) + KeptTestNamesOfPrimary(rules, b)) + (KeptTestNamesOfPrimary(rules, c) + KeptTestNamesOfPrimary(rules, d))
    + (KeptTestNamesOfPrimary(rules, e) + KeptTestNamesOfPrimary(rules, f)) + (KeptTestNamesOfPrimary(rules, g) + KeptTestNamesOfPrimary(rules, h))
  {
    var m := [a, b, c, d, e, f, g, h];
    assert m[8..] == [];
    assert SecondaryNameUnion(rules, m[7..]) == KeptTestNamesOfPrimary(rules, m[7]) + SecondaryNameUnion(rules, m[8..]);
    assert SecondaryNameUnion(rules, m[6..]) == KeptTestNamesOfPrimary(rules, m[6]) + SecondaryNameUnion(rules, m[7..]);
    assert SecondaryNameUnion(rules, m[5..]) == KeptTestNamesOfPrimary(rules, m[5]) + SecondaryNameUnion(rules, m[6..]);
    assert SecondaryNameUnion(rules, m[4..]) == KeptTestNamesOfPrimary(rules, m[4]) + SecondaryNameUnion(rules, m[5..]);
    assert SecondaryNameUnion(rules, m[3..]) == KeptTestNamesOfPrimary(rules, m[3]) + SecondaryNameUnion(rules, m[4..]);
    assert SecondaryNameUnion(rules, m[2..]) == KeptTestNamesOfPrimary(rules, m[2]) + SecondaryNameUnion(rules, m[3..]);
    assert SecondaryNameUnion(rules, m[1..]) == KeptTestNamesOfPrimary(rules, m[1]) + SecondaryNameUnion(rules, m[2..]);
    assert SecondaryNameUnion(rules, m[0..]) == KeptTestNamesOfPrimary(rules, m[0]) + SecondaryNameUnion(rules, m[1..]);
  }

  /** A debug variant's kept secondaries: none when it is itself ignored,
      otherwise whichever of its two test variants is not ignored. */
  lemma DebugTestNames(rules: IgnoreRules, flavor: string, name: string, androidTest: string, unitTest: string)
    ensures KeptTestNamesOfPrimary(rules, DebugVariant(flavor, name, androidTest, unitTest))
         == (if Ignored(rules, DebugVariant(flavor, name, androidTest, unitTest)) then {}
             else KeptPrimaryNameOf(rules, Secondary(androidTest, "debug", flavor)) + KeptPrimaryNameOf(rules, Secondary(unitTest, "debug", flavor)))
  {
    var a, u := Secondary(androidTest, "debug", flavor), Secondary(unitTest, "debug", flavor);
    var ts := [a, u];
    assert TestVariants(DebugVariant(flavor, name, androidTest, unitTest)) == ts;
    assert ts[1..] == [u] && ts[1..][1..] == [];
    assert PrimaryNameUnion(rules, ts[1..]) == KeptPrimaryNameOf(rules, u) + PrimaryNameUnion(rules, []);
    assert PrimaryNameUnion(rules, ts) == KeptPrimaryNameOf(rules, a) + PrimaryNameUnion(rules, ts[1..]);
  }

  /** A release variant's kept secondaries: at most its unit-test variant. */
  lemma ReleaseTestNames(rules: IgnoreRules, flavor: string, name: string, unitTest: string)
    ensures KeptTestNamesOfPrimary(rules, ReleaseVariant(flavor, name, unitTest))
         == (if Ignored(rules, ReleaseVariant(flavor, name, unitTest)) then {}
             else KeptPrimaryNameOf(rules, Secondary(unitTest, "release", flavor)))
  {
    var u := Secondary(unitTest, "release", flavor);
    var ts := [u];
    assert TestVariants(ReleaseVariant(flavor, name, unitTest)) == ts;
    assert ts[1..] == [];
    assert PrimaryNameUnion(rules, ts) == KeptPrimaryNameOf(rules, u) + PrimaryNameUnion(rules, ts[1..]);
  }

  /** Per-variant facts for each scenario: which primaries are kept, and which
      secondaries each pair of same-flavor primaries contributes. */
  lemma UnfilteredPrimaryDecisions()
    ensures KeptPrimaryNameOf(DefaultRules, YoungHarryDebug) == {"youngHarryDebug"}
    ensures KeptPrimaryNameOf(DefaultRules, YoungHarryRelease) == {"youngHarryRelease"}
    ensures KeptPrimaryNameOf(DefaultRules, OldHarryDebug) == {"oldHarryDebug"}
    ensures KeptPrimaryNameOf(DefaultRules, OldHarryRelease) == {"oldHarryRelease"}
    ensures KeptPrimaryNameOf(DefaultRules, YoungSallyDebug) == {"youngSallyDebug"}
    ensures KeptPrimaryNameOf(DefaultRules, YoungSallyRelease) == {"youngSallyRelease"}
    ensures KeptPrimaryNameOf(DefaultRules, OldSallyDebug) == {"oldSallyDebug"}
    ensures KeptPrimaryNameOf(DefaultRules, OldSallyRelease) == {"oldSallyRelease"}
  {
  }

  lemma UnfilteredYoungHarryTestNames()
    ensures KeptTestNamesOfPrimary(DefaultRules, YoungHarryDebug) + KeptTestNamesOfPrimary(DefaultRules, YoungHarryRelease) == {"youngHarryDebugAndroidTest", "youngHarryDebugUnitTest", "youngHarryReleaseUnitTest"}
  {
    DebugTestNames(DefaultRules, "youngHarry", "youngHarryDebug", "youngHarryDebugAndroidTest", "youngHarryDebugUnitTest");
    ReleaseTestNames(DefaultRules, "youngHarry", "youngHarryRelease", "youngHarryReleaseUnitTest");
    assert !Ignored(DefaultRules, YoungHarryDebug);
    assert !Ignored(DefaultRules, Secondary("youngHarryDebugAndroidTest", "debug", "youngHarry"));
    assert !Ignored(DefaultRules, Secondary("youngHarryDebugUnitTest", "debug", "youngHarry"));
    assert !Ignored(DefaultRules, YoungHarryRelease);
    assert !Ignored(DefaultRules, Secondary("youngHarryReleaseUnitTest", "release", "youngHarry"));
  }

  lemma UnfilteredOldHarryTestNames()
    ensures KeptTestNamesOfPrimary(DefaultRules, OldHarryDebug) + KeptTestNamesOfPrimary(DefaultRules, OldHarryRelease) == {"oldHarryDebugAndroidTest", "oldHarryDebugUnitTest", "oldHarryReleaseUnitTest"}
  {
    DebugTestNames(DefaultRules, "oldHarry", "oldHarryDebug", "oldHarryDebugAndroidTest", "oldHarryDebugUnitTest");
    ReleaseTestNames(DefaultRules, "oldHarry", "oldHarryRelease", "oldHarryReleaseUnitTest");
    assert !Ignored(DefaultRules, OldHarryDebug);
    assert !Ignored(DefaultRules, Secondary("oldHarryDebugAndroidTest", "debug", "oldHarry"));
    assert !Ignored(DefaultRules, Secondary("oldHarryDebugUnitTest", "debug", "oldHarry"));
    assert !Ignored(DefaultRules, OldHarryRelease);
    assert !Ignored(DefaultRules, Secondary("oldHarryReleaseUnitTest", "release", "oldHarry"));
  }

  lemma UnfilteredYoungSallyTestNames()
    ensures KeptTestNamesOfPrimary(DefaultRules, YoungSallyDebug) + KeptTestNamesOfPrimary(DefaultRules, YoungSallyRelease) == {"youngSallyDebugAndroidTest", "youngSallyDebugUnitTest", "youngSallyReleaseUnitTest"}
  {
    DebugTestNames(DefaultRules, "youngSally", "youngSallyDebug", "youngSallyDebugAndroidTest", "youngSallyDebugUnitTest");
    ReleaseTestNames(DefaultRules, "youngSally", "youngSallyRelease", "youngSallyReleaseUnitTest");
    assert !Ignored(DefaultRules, YoungSallyDebug);
    assert !Ignored(DefaultRules, Secondary("youngSallyDebugAndroidTest", "debug", "youngSally"));
    assert !Ignored(DefaultRules, Secondary("youngSallyDebugUnitTest", "debug", "youngSally"));
    assert !Ignored(DefaultRules, YoungSallyRelease);
    assert !Ignored(DefaultRules, Secondary("youngSallyReleaseUnitTest", "release", "youngSally"));
  }

  lemma UnfilteredOldSallyTestNames()
    ensures KeptTestNamesOfPrimary(DefaultRules, OldSallyDebug) + KeptTestNamesOfPrimary(DefaultRules, OldSallyRelease) == {"oldSallyDebugAndroidTest", "oldSallyDebugUnitTest", "oldSallyReleaseUnitTest"}
  {
    DebugTestNames(DefaultRules, "oldSally", "oldSallyDebug", "oldSallyDebugAndroidTest", "oldSallyDebugUnitTest");
    ReleaseTestNames(DefaultRules, "oldSally", "oldSallyRelease", "oldSallyReleaseUnitTest");
    assert !Ignored(DefaultRules, OldSallyDebug);
    assert !Ignored(DefaultRules, Secondary("oldSallyDebugAndroidTest", "debug", "oldSally"));
    assert !Ignored(DefaultRules, Secondary("oldSallyDebugUnitTest", "debug", "oldSally"));
    assert !Ignored(DefaultRules, OldSallyRelease);
    assert !Ignored(DefaultRules, Secondary("oldSallyReleaseUnitTest", "release", "oldSally"));
  }

  lemma UnfilteredKeptPrimaries()
    ensures PrimaryNameUnion(DefaultRules, FlavorMatrix) == {"youngHarryDebug", "youngHarryRelease", "oldHarryDebug", "oldHarryRelease", "youngSallyDebug", "youngSallyRelease", "oldSallyDebug", "oldSallyRelease"}
  {
    EightPrimaries(DefaultRules, YoungHarryDebug, YoungHarryRelease, OldHarryDebug, OldHarryRelease, YoungSallyDebug, YoungSallyRelease, OldSallyDebug, OldSallyRelease);
    UnfilteredPrimaryDecisions();
  }

  lemma UnfilteredKeptSecondaries()
    ensures SecondaryNameUnion(DefaultRules, FlavorMatrix) == {"youngHarryDebugAndroidTest", "youngHarryDebugUnitTest", "youngHarryReleaseUnitTest"} + {"oldHarryDebugAndroidTest", "oldHarryDebugUnitTest", "oldHarryReleaseUnitTest"} + {"youngSallyDebugAndroidTest", "youngSallyDebugUnitTest", "youngSallyReleaseUnitTest"} + {"oldSallyDebugAndroidTest", "oldSallyDebugUnitTest", "oldSallyReleaseUnitTest"}
  {
    EightSecondaries(DefaultRules, YoungHarryDebug, YoungHarryRelease, OldHarryDebug, OldHarryRelease, YoungSallyDebug, YoungSallyRelease, OldSallyDebug, OldSallyRelease);
    UnfilteredYoungHarryTestNames();
    UnfilteredOldHarryTestNames();
    UnfilteredYoungSallyTestNames();
    UnfilteredOldSallyTestNames();
  }

  /** Without ignore rules every variant of the flavor matrix gets a task:
      eight primaries under `detektMain`, and all twelve secondaries (every
      unit-test variant, the debug instrumentation variants) under `detektTest`. */
  lemma UnfilteredScenario()
    ensures MainDeps(DefaultRules, FlavorMatrix) == TaskNames({"youngHarryDebug", "youngHarryRelease", "oldHarryDebug", "oldHarryRelease", "youngSallyDebug", "youngSallyRelease", "oldSallyDebug", "oldSallyRelease"})
    ensures TestDeps(DefaultRules, FlavorMatrix) == TaskNames({"youngHarryDebugAndroidTest", "youngHarryDebugUnitTest", "youngHarryReleaseUnitTest"} + {"oldHarryDebugAndroidTest", "oldHarryDebugUnitTest", "oldHarryReleaseUnitTest"} + {"youngSallyDebugAndroidTest", "youngSallyDebugUnitTest", "youngSallyReleaseUnitTest"} + {"oldSallyDebugAndroidTest", "oldSallyDebugUnitTest", "oldSallyReleaseUnitTest"})
  {
    DependenciesViaUnions(DefaultRules, FlavorMatrix);
    UnfilteredKeptPrimaries();
    UnfilteredKeptSecondaries();
  }

  lemma IgnoredVariantsPrimaryDecisions()
    ensures KeptPrimaryNameOf(IgnoreTwoVariants, YoungHarryDebug) == {}
    ensures KeptPrimaryNameOf(IgnoreTwoVariants, YoungHarryRelease) == {"youngHarryRelease"}
    ensures KeptPrimaryNameOf(IgnoreTwoVariants, OldHarryDebug) == {"oldHarryDebug"}
    ensures KeptPrimaryNameOf(IgnoreTwoVariants, OldHarryRelease) == {"oldHarryRelease"}
    ensures KeptPrimaryNameOf(IgnoreTwoVariants, YoungSallyDebug) == {"youngSallyDebug"}
    ensures KeptPrimaryNameOf(IgnoreTwoVariants, YoungSallyRelease) == {"youngSallyRelease"}
    ensures KeptPrimaryNameOf(IgnoreTwoVariants, OldSallyDebug) == {"oldSallyDebug"}
    ensures KeptPrimaryNameOf(IgnoreTwoVariants, OldSallyRelease) == {}
  {
  }

  lemma IgnoredVariantsYoungHarryTestNames()
    ensures KeptTestNamesOfPrimary(IgnoreTwoVariants, YoungHarryDebug) + KeptTestNamesOfPrimary(IgnoreTwoVariants, YoungHarryRelease) == {"youngHarryReleaseUnitTest"}
  {
    DebugTestNames(IgnoreTwoVariants, "youngHarry", "youngHarryDebug", "youngHarryDebugAndroidTest", "youngHarryDebugUnitTest");
    ReleaseTestNames(IgnoreTwoVariants, "youngHarry", "youngHarryRelease", "youngHarryReleaseUnitTest");
    assert Ignored(IgnoreTwoVariants, YoungHarryDebug);
    assert !Ignored(IgnoreTwoVariants, YoungHarryRelease);
    assert !Ignored(IgnoreTwoVariants, Secondary("youngHarryReleaseUnitTest", "release", "youngHarry"));
  }

  lemma IgnoredVariantsOldHarryTestNames()
    ensures KeptTestNamesOfPrimary(IgnoreTwoVariants, OldHarryDebug) + KeptTestNamesOfPrimary(IgnoreTwoVariants, OldHarryRelease) == {"oldHarryDebugAndroidTest", "oldHarryDebugUnitTest", "oldHarryReleaseUnitTest"}
  {
    DebugTestNames(IgnoreTwoVariants, "oldHarry", "oldHarryDebug", "oldHarryDebugAndroidTest", "oldHarryDebugUnitTest");
    ReleaseTestNames(IgnoreTwoVariants, "oldHarry", "oldHarryRelease", "oldHarryReleaseUnitTest");
    assert !Ignored(IgnoreTwoVariants, OldHarryDebug);
    assert !Ignored(IgnoreTwoVariants, Secondary("oldHarryDebugAndroidTest", "debug", "oldHarry"));
    assert !Ignored(IgnoreTwoVariants, Secondary("oldHarryDebugUnitTest", "debug", "oldHarry"));
    assert !Ignored(IgnoreTwoVariants, OldHarryRelease);
    assert !Ignored(IgnoreTwoVariants, Secondary("oldHarryReleaseUnitTest", "release", "oldHarry"));
  }

  lemma IgnoredVariantsYoungSallyTestNames()
    ensures KeptTestNamesOfPrimary(IgnoreTwoVariants, YoungSallyDebug) + KeptTestNamesOfPrimary(IgnoreTwoVariants, YoungSallyRelease) == {"youngSallyDebugAndroidTest", "youngSallyDebugUnitTest", "youngSallyReleaseUnitTest"}
  {
    DebugTestNames(IgnoreTwoVariants, "youngSally", "youngSallyDebug", "youngSallyDebugAndroidTest", "youngSallyDebugUnitTest");
    ReleaseTestNames(IgnoreTwoVariants, "youngSally", "youngSallyRelease", "youngSallyReleaseUnitTest");
    assert !Ignored(IgnoreTwoVariants, YoungSallyDebug);
    assert !Ignored(IgnoreTwoVariants, Secondary("youngSallyDebugAndroidTest", "debug", "youngSally"));
    assert !Ignored(IgnoreTwoVariants, Secondary("youngSallyDebugUnitTest", "debug", "youngSally"));
    assert !Ignored(IgnoreTwoVariants, YoungSallyRelease);
    assert !Ignored(IgnoreTwoVariants, Secondary("youngSallyReleaseUnitTest", "release", "youngSally"));
  }

  lemma IgnoredVariantsOldSallyTestNames()
    ensures KeptTestNamesOfPrimary(IgnoreTwoVariants, OldSallyDebug) + KeptTestNamesOfPrimary(IgnoreTwoVariants, OldSallyRelease) == {"oldSallyDebugAndroidTest", "oldSallyDebugUnitTest"}
  {
    DebugTestNames(IgnoreTwoVariants, "oldSally", "oldSallyDebug", "oldSallyDebugAndroidTest", "oldSallyDebugUnitTest");
    ReleaseTestNames(IgnoreTwoVariants, "oldSally", "oldSallyRelease", "oldSallyReleaseUnitTest");
    assert !Ignored(IgnoreTwoVariants, OldSallyDebug);
    assert !Ignored(IgnoreTwoVariants, Secondary("oldSallyDebugAndroidTest", "debug", "oldSally"));
    assert !Ignored(IgnoreTwoVariants, Secondary("oldSallyDebugUnitTest", "debug", "oldSally"));
    assert Ignored(IgnoreTwoVariants, OldSallyRelease);
  }

  lemma IgnoredVariantsKeptPrimaries()
    ensures PrimaryNameUnion(IgnoreTwoVariants, FlavorMatrix) == {"youngHarryRelease", "oldHarryDebug", "oldHarryRelease", "youngSallyDebug", "youngSallyRelease", "oldSallyDebug"}
  {
    EightPrimaries(IgnoreTwoVariants, YoungHarryDebug, YoungHarryRelease, OldHarryDebug, OldHarryRelease, YoungSallyDebug, YoungSallyRelease, OldSallyDebug, OldSallyRelease);
    IgnoredVariantsPrimaryDecisions();
  }

  lemma IgnoredVariantsKeptSecondaries()
    ensures SecondaryNameUnion(IgnoreTwoVariants, FlavorMatrix) == {"youngHarryReleaseUnitTest"} + {"oldHarryDebugAndroidTest", "oldHarryDebugUnitTest", "oldHarryReleaseUnitTest"} + {"youngSallyDebugAndroidTest", "youngSallyDebugUnitTest", "youngSallyReleaseUnitTest"} + {"oldSallyDebugAndroidTest", "oldSallyDebugUnitTest"}
  {
    EightSecondaries(IgnoreTwoVariants, YoungHarryDebug, YoungHarryRelease, OldHarryDebug, OldHarryRelease, YoungSallyDebug, YoungSallyRelease, OldSallyDebug, OldSallyRelease);
    IgnoredVariantsYoungHarryTestNames();
    IgnoredVariantsOldHarryTestNames();
    IgnoredVariantsYoungSallyTestNames();
    IgnoredVariantsOldSallyTestNames();
  }

  /** Ignoring the variants youngHarryDebug and oldSallyRelease drops them and
      their secondaries, and nothing else. */
  lemma IgnoredVariantsScenario()
    ensures MainDeps(IgnoreTwoVariants, FlavorMatrix) == TaskNames({"youngHarryRelease", "oldHarryDebug", "oldHarryRelease", "youngSallyDebug", "youngSallyRelease", "oldSallyDebug"})
    ensures TestDeps(IgnoreTwoVariants, FlavorMatrix) == TaskNames({"youngHarryReleaseUnitTest"} + {"oldHarryDebugAndroidTest", "oldHarryDebugUnitTest", "oldHarryReleaseUnitTest"} + {"youngSallyDebugAndroidTest", "youngSallyDebugUnitTest", "youngSallyReleaseUnitTest"} + {"oldSallyDebugAndroidTest", "oldSallyDebugUnitTest"})
  {
    DependenciesViaUnions(IgnoreTwoVariants, FlavorMatrix);
    IgnoredVariantsKeptPrimaries();
    IgnoredVariantsKeptSecondaries();
  }

  lemma IgnoredBuildTypePrimaryDecisions()
    ensures KeptPrimaryNameOf(IgnoreRelease, YoungHarryDebug) == {"youngHarryDebug"}
    ensures KeptPrimaryNameOf(IgnoreRelease, YoungHarryRelease) == {}
    ensures KeptPrimaryNameOf(IgnoreRelease, OldHarryDebug) == {"oldHarryDebug"}
    ensures KeptPrimaryNameOf(IgnoreRelease, OldHarryRelease) == {}
    ensures KeptPrimaryNameOf(IgnoreRelease, YoungSallyDebug) == {"youngSallyDebug"}
    ensures KeptPrimaryNameOf(IgnoreRelease, YoungSallyRelease) == {}
    ensures KeptPrimaryNameOf(IgnoreRelease, OldSallyDebug) == {"oldSallyDebug"}
    ensures KeptPrimaryNameOf(IgnoreRelease, OldSallyRelease) == {}
  {
  }

  lemma IgnoredBuildTypeYoungHarryTestNames()
    ensures KeptTestNamesOfPrimary(IgnoreRelease, YoungHarryDebug) + KeptTestNamesOfPrimary(IgnoreRelease, YoungHarryRelease) == {"youngHarryDebugAndroidTest", "youngHarryDebugUnitTest"}
  {
    DebugTestNames(IgnoreRelease, "youngHarry", "youngHarryDebug", "youngHarryDebugAndroidTest", "youngHarryDebugUnitTest");
    ReleaseTestNames(IgnoreRelease, "youngHarry", "youngHarryRelease", "youngHarryReleaseUnitTest");
    assert !Ignored(IgnoreRelease, YoungHarryDebug);
    assert !Ignored(IgnoreRelease, Secondary("youngHarryDebugAndroidTest", "debug", "youngHarry"));
    assert !Ignored(IgnoreRelease, Secondary("youngHarryDebugUnitTest", "debug", "youngHarry"));
    assert Ignored(IgnoreRelease, YoungHarryRelease);
  }

  lemma IgnoredBuildTypeOldHarryTestNames()
    ensures KeptTestNamesOfPrimary(IgnoreRelease, OldHarryDebug) + KeptTestNamesOfPrimary(IgnoreRelease, OldHarryRelease) == {"oldHarryDebugAndroidTest", "oldHarryDebugUnitTest"}
  {
    DebugTestNames(IgnoreRelease, "oldHarry", "oldHarryDebug", "oldHarryDebugAndroidTest", "oldHarryDebugUnitTest");
    ReleaseTestNames(IgnoreRelease, "oldHarry", "oldHarryRelease", "oldHarryReleaseUnitTest");
    assert !Ignored(IgnoreRelease, OldHarryDebug);
    assert !Ignored(IgnoreRelease, Secondary("oldHarryDebugAndroidTest", "debug", "oldHarry"));
    assert !Ignored(IgnoreRelease, Secondary("oldHarryDebugUnitTest", "debug", "oldHarry"));
    assert Ignored(IgnoreRelease, OldHarryRelease);
  }

  lemma IgnoredBuildTypeYoungSallyTestNames()
    ensures KeptTestNamesOfPrimary(IgnoreRelease, YoungSallyDebug) + KeptTestNamesOfPrimary(IgnoreRelease, YoungSallyRelease) == {"youngSallyDebugAndroidTest", "youngSallyDebugUnitTest"}
  {
    DebugTestNames(IgnoreRelease, "youngSally", "youngSallyDebug", "youngSallyDebugAndroidTest", "youngSallyDebugUnitTest");
    ReleaseTestNames(IgnoreRelease, "youngSally", "youngSallyRelease", "youngSallyReleaseUnitTest");
    assert !Ignored(IgnoreRelease, YoungSallyDebug);
    assert !Ignored(IgnoreRelease, Secondary("youngSallyDebugAndroidTest", "debug", "youngSally"));
    assert !Ignored(IgnoreRelease, Secondary("youngSallyDebugUnitTest", "debug", "youngSally"));
    assert Ignored(IgnoreRelease, YoungSallyRelease);
  }

  lemma IgnoredBuildTypeOldSallyTestNames()
    ensures KeptTestNamesOfPrimary(IgnoreRelease, OldSallyDebug) + KeptTestNamesOfPrimary(IgnoreRelease, OldSallyRelease) == {"oldSallyDebugAndroidTest", "oldSallyDebugUnitTest"}
  {
    DebugTestNames(IgnoreRelease, "oldSally", "oldSallyDebug", "oldSallyDebugAndroidTest", "oldSallyDebugUnitTest");
    ReleaseTestNames(IgnoreRelease, "oldSally", "oldSallyRelease", "oldSallyReleaseUnitTest");
    assert !Ignored(IgnoreRelease, OldSallyDebug);
    assert !Ignored(IgnoreRelease, Secondary("oldSallyDebugAndroidTest", "debug", "oldSally"));
    assert !Ignored(IgnoreRelease, Secondary("oldSallyDebugUnitTest", "debug", "oldSally"));
    assert Ignored(IgnoreRelease, OldSallyRelease);
  }

  lemma IgnoredBuildTypeKeptPrimaries()
    ensures PrimaryNameUnion(IgnoreRelease, FlavorMatrix) == {"youngHarryDebug", "oldHarryDebug", "youngSallyDebug", "oldSallyDebug"}
  {
    EightPrimaries(IgnoreRelease, YoungHarryDebug, YoungHarryRelease, OldHarryDebug, OldHarryRelease, YoungSallyDebug, YoungSallyRelease, OldSallyDebug, OldSallyRelease);
    IgnoredBuildTypePrimaryDecisions();
  }

  lemma IgnoredBuildTypeKeptSecondaries()
    ensures SecondaryNameUnion(IgnoreRelease, FlavorMatrix) == {"youngHarryDebugAndroidTest", "youngHarryDebugUnitTest"} + {"oldHarryDebugAndroidTest", "oldHarryDebugUnitTest"} + {"youngSallyDebugAndroidTest", "youngSallyDebugUnitTest"} + {"oldSallyDebugAndroidTest", "oldSallyDebugUnitTest"}
  {
    EightSecondaries(IgnoreRelease, YoungHarryDebug, YoungHarryRelease, OldHarryDebug, OldHarryRelease, YoungSallyDebug, YoungSallyRelease, OldSallyDebug, OldSallyRelease);
    IgnoredBuildTypeYoungHarryTestNames();
    IgnoredBuildTypeOldHarryTestNames();
    IgnoredBuildTypeYoungSallyTestNames();
    IgnoredBuildTypeOldSallyTestNames();
  }

  /** Ignoring the release build type drops every release variant together with
      its unit-test variant. */
  lemma IgnoredBuildTypeScenario()
    ensures MainDeps(IgnoreRelease, FlavorMatrix) == TaskNames({"youngHarryDebug", "oldHarryDebug", "youngSallyDebug", "oldSallyDebug"})
    ensures TestDeps(IgnoreRelease, FlavorMatrix) == TaskNames({"youngHarryDebugAndroidTest", "youngHarryDebugUnitTest"} + {"oldHarryDebugAndroidTest", "oldHarryDebugUnitTest"} + {"youngSallyDebugAndroidTest", "youngSallyDebugUnitTest"} + {"oldSallyDebugAndroidTest", "oldSallyDebugUnitTest"})
  {
    DependenciesViaUnions(IgnoreRelease, FlavorMatrix);
    IgnoredBuildTypeKeptPrimaries();
    IgnoredBuildTypeKeptSecondaries();
  }

  lemma IgnoredFlavorsPrimaryDecisions()
    ensures KeptPrimaryNameOf(IgnoreTwoFlavors, YoungHarryDebug) == {"youngHarryDebug"}
    ensures KeptPrimaryNameOf(IgnoreTwoFlavors, YoungHarryRelease) == {"youngHarryRelease"}
    ensures KeptPrimaryNameOf(IgnoreTwoFlavors, OldHarryDebug) == {}
    ensures KeptPrimaryNameOf(IgnoreTwoFlavors, OldHarryRelease) == {}
    ensures KeptPrimaryNameOf(IgnoreTwoFlavors, YoungSallyDebug) == {}
    ensures KeptPrimaryNameOf(IgnoreTwoFlavors, YoungSallyRelease) == {}
    ensures KeptPrimaryNameOf(IgnoreTwoFlavors, OldSallyDebug) == {"oldSallyDebug"}
    ensures KeptPrimaryNameOf(IgnoreTwoFlavors, OldSallyRelease) == {"oldSallyRelease"}
  {
  }

  lemma IgnoredFlavorsYoungHarryTestNames()
    ensures KeptTestNamesOfPrimary(IgnoreTwoFlavors, YoungHarryDebug) + KeptTestNamesOfPrimary(IgnoreTwoFlavors, YoungHarryRelease) == {"youngHarryDebugAndroidTest", "youngHarryDebugUnitTest", "youngHarryReleaseUnitTest"}
  {
    DebugTestNames(IgnoreTwoFlavors, "youngHarry", "youngHarryDebug", "youngHarryDebugAndroidTest", "youngHarryDebugUnitTest");
    ReleaseTestNames(IgnoreTwoFlavors, "youngHarry", "youngHarryRelease", "youngHarryReleaseUnitTest");
    assert !Ignored(IgnoreTwoFlavors, YoungHarryDebug);
    assert !Ignored(IgnoreTwoFlavors, Secondary("youngHarryDebugAndroidTest", "debug", "youngHarry"));
    assert !Ignored(IgnoreTwoFlavors, Secondary("youngHarryDebugUnitTest", "debug", "youngHarry"));
    assert !Ignored(IgnoreTwoFlavors, YoungHarryRelease);
    assert !Ignored(IgnoreTwoFlavors, Secondary("youngHarryReleaseUnitTest", "release", "youngHarry"));
  }

  lemma IgnoredFlavorsOldHarryTestNames()
    ensures KeptTestNamesOfPrimary(IgnoreTwoFlavors, OldHarryDebug) + KeptTestNamesOfPrimary(IgnoreTwoFlavors, OldHarryRelease) == {}
  {
    DebugTestNames(IgnoreTwoFlavors, "oldHarry", "oldHarryDebug", "oldHarryDebugAndroidTest", "oldHarryDebugUnitTest");
    ReleaseTestNames(IgnoreTwoFlavors, "oldHarry", "oldHarryRelease", "oldHarryReleaseUnitTest");
    assert Ignored(IgnoreTwoFlavors, OldHarryDebug);
    assert Ignored(IgnoreTwoFlavors, OldHarryRelease);
  }

  lemma IgnoredFlavorsYoungSallyTestNames()
    ensures KeptTestNamesOfPrimary(IgnoreTwoFlavors, YoungSallyDebug) + KeptTestNamesOfPrimary(IgnoreTwoFlavors, YoungSallyRelease) == {}
  {
    DebugTestNames(IgnoreTwoFlavors, "youngSally", "youngSallyDebug", "youngSallyDebugAndroidTest", "youngSallyDebugUnitTest");
    ReleaseTestNames(IgnoreTwoFlavors, "youngSally", "youngSallyRelease", "youngSallyReleaseUnitTest");
    assert Ignored(IgnoreTwoFlavors, YoungSallyDebug);
    assert Ignored(IgnoreTwoFlavors, YoungSallyRelease);
  }

  lemma IgnoredFlavorsOldSallyTestNames()
    ensures KeptTestNamesOfPrimary(IgnoreTwoFlavors, OldSallyDebug) + KeptTestNamesOfPrimary(IgnoreTwoFlavors, OldSallyRelease) == {"oldSallyDebugAndroidTest", "oldSallyDebugUnitTest", "oldSallyReleaseUnitTest"}
  {
    DebugTestNames(IgnoreTwoFlavors, "oldSally", "oldSallyDebug", "oldSallyDebugAndroidTest", "oldSallyDebugUnitTest");
    ReleaseTestNames(IgnoreTwoFlavors, "oldSally", "oldSallyRelease", "oldSallyReleaseUnitTest");
    assert !Ignored(IgnoreTwoFlavors, OldSallyDebug);
    assert !Ignored(IgnoreTwoFlavors, Secondary("oldSallyDebugAndroidTest", "debug", "oldSally"));
    assert !Ignored(IgnoreTwoFlavors, Secondary("oldSallyDebugUnitTest", "debug", "oldSally"));
    assert !Ignored(IgnoreTwoFlavors, OldSallyRelease);
    assert !Ignored(IgnoreTwoFlavors, Secondary("oldSallyReleaseUnitTest", "release", "oldSally"));
  }

  lemma IgnoredFlavorsKeptPrimaries()
    ensures PrimaryNameUnion(IgnoreTwoFlavors, FlavorMatrix) == {"youngHarryDebug", "youngHarryRelease", "oldSallyDebug", "oldSallyRelease"}
  {
    EightPrimaries(IgnoreTwoFlavors, YoungHarryDebug, YoungHarryRelease, OldHarryDebug, OldHarryRelease, YoungSallyDebug, YoungSallyRelease, OldSallyDebug, OldSallyRelease);
    IgnoredFlavorsPrimaryDecisions();
  }

  lemma IgnoredFlavorsKeptSecondaries()
    ensures SecondaryNameUnion(IgnoreTwoFlavors, FlavorMatrix) == {"youngHarryDebugAndroidTest", "youngHarryDebugUnitTest", "youngHarryReleaseUnitTest"} + {} + {} + {"oldSallyDebugAndroidTest", "oldSallyDebugUnitTest", "oldSallyReleaseUnitTest"}
  {
    EightSecondaries(IgnoreTwoFlavors, YoungHarryDebug, YoungHarryRelease, OldHarryDebug, OldHarryRelease, YoungSallyDebug, YoungSallyRelease, OldSallyDebug, OldSallyRelease);
    IgnoredFlavorsYoungHarryTestNames();
    IgnoredFlavorsOldHarryTestNames();
    IgnoredFlavorsYoungSallyTestNames();
    IgnoredFlavorsOldSallyTestNames();
  }

  /** Ignoring the flavors oldHarry and youngSally drops every variant of
      those flavors, primaries and secondaries alike. */
  lemma IgnoredFlavorsScenario()
    ensures MainDeps(IgnoreTwoFlavors, FlavorMatrix) == TaskNames({"youngHarryDebug", "youngHarryRelease", "oldSallyDebug", "oldSallyRelease"})
    ensures TestDeps(IgnoreTwoFlavors, FlavorMatrix) == TaskNames({"youngHarryDebugAndroidTest", "youngHarryDebugUnitTest", "youngHarryReleaseUnitTest"} + {} + {} + {"oldSallyDebugAndroidTest", "oldSallyDebugUnitTest", "oldSallyReleaseUnitTest"})
  {
    DependenciesViaUnions(IgnoreTwoFlavors, FlavorMatrix);
    IgnoredFlavorsKeptPrimaries();
    IgnoredFlavorsKeptSecondaries();
  }

  /** A project without product flavors: one debug and one release variant. */
  const PlainDebug: Variant := DebugVariant("", "debug", "debugAndroidTest", "debugUnitTest")
  const PlainRelease: Variant := ReleaseVariant("", "release", "releaseUnitTest")

  /** The only variant of a `com.android.test` project. It is modelled without
      secondaries, matching the expectation of DetektAndroidPluginTest.kt that
      such a project gets no task under `detektTest`. */
  const TestProjectDebug: Variant := Variant("debug", "debug", "", [], [], NotTested)

  /** A project with `kotlin-android` applied, the given extension and no ignore rules. */
  function ProjectWith(ext: BaseExtension): AndroidProject {
    AndroidProject(true, Some(ext), DefaultRules, Env)
  }

  /** A project's registrations are those of its variants under its rules. */
  lemma ProjectRegistrations(ext: BaseExtension, vs: seq<Variant>)
    requires VariantsOf(ext) == Some(vs)
    ensures AndroidRegistrations(ProjectWith(ext)) == Registrations(Env, Plan(DefaultRules, vs))
  {
  }

  /** The name unions of short enumerations, spelled out. */
  lemma TwoVariants(rules: IgnoreRules, a: Variant, b: Variant)
    ensures PrimaryNameUnion(rules, [a, b]) == KeptPrimaryNameOf(rules, a) + KeptPrimaryNameOf(rules, b)
    ensures SecondaryNameUnion(rules, [a, b]) == KeptTestNamesOfPrimary(rules, a) + KeptTestNamesOfPrimary(rules, b)
  {
    var m := [a, b];
    assert m[1..] == [b] && m[1..][1..] == [];
    assert PrimaryNameUnion(rules, m[1..]) == KeptPrimaryNameOf(rules, b) + PrimaryNameUnion(rules, []);
    assert SecondaryNameUnion(rules, m[1..]) == KeptTestNamesOfPrimary(rules, b) + SecondaryNameUnion(rules, []);
  }

  lemma OneVariant(rules: IgnoreRules, a: Variant)
    ensures PrimaryNameUnion(rules, [a]) == KeptPrimaryNameOf(rules, a)
    ensures SecondaryNameUnion(rules, [a]) == KeptTestNamesOfPrimary(rules, a)
  {
    assert [a][1..] == [];
  }

  lemma PlainKeptPrimaries()
    ensures PrimaryNameUnion(DefaultRules, [PlainDebug, PlainRelease]) == {"debug", "release"}
  {
    TwoVariants(DefaultRules, PlainDebug, PlainRelease);
    assert !Ignored(DefaultRules, PlainDebug) && !Ignored(DefaultRules, PlainRelease);
  }

  lemma PlainKeptSecondaries()
    ensures SecondaryNameUnion(DefaultRules, [PlainDebug, PlainRelease]) == {"debugAndroidTest", "debugUnitTest"} + {"releaseUnitTest"}
  {
    TwoVariants(DefaultRules, PlainDebug, PlainRelease);
    DebugTestNames(DefaultRules, "", "debug", "debugAndroidTest", "debugUnitTest");
    ReleaseTestNames(DefaultRules, "", "release", "releaseUnitTest");
    assert !Ignored(DefaultRules, PlainDebug) && !Ignored(DefaultRules, PlainRelease);
    assert !Ignored(DefaultRules, Secondary("debugAndroidTest", "debug", ""));
    assert !Ignored(DefaultRules, Secondary("debugUnitTest", "debug", ""));
    assert !Ignored(DefaultRules, Secondary("releaseUnitTest", "release", ""));
  }

  /** With the library plugin, `detektMain` depends on the debug and release
      tasks and `detektTest` on both unit-test tasks and the debug
      instrumentation task. */
  lemma LibraryScenario()
    ensures DependenciesOf(AndroidRegistrations(ProjectWith(LibraryExtension([PlainDebug, PlainRelease]))), MainTask)
         == TaskNames({"debug", "release"})
    ensures DependenciesOf(AndroidRegistrations(ProjectWith(LibraryExtension([PlainDebug, PlainRelease]))), TestTask)
         == TaskNames({"debugAndroidTest", "debugUnitTest"} + {"releaseUnitTest"})
  {
    ProjectRegistrations(LibraryExtension([PlainDebug, PlainRelease]), [PlainDebug, PlainRelease]);
    DependenciesViaUnions(DefaultRules, [PlainDebug, PlainRelease]);
    PlainKeptPrimaries();
    PlainKeptSecondaries();
  }

  /** The application plugin gives the same tasks as the library plugin. */
  lemma ApplicationScenario()
    ensures DependenciesOf(AndroidRegistrations(ProjectWith(AppExtension([PlainDebug, PlainRelease]))), MainTask)
         == TaskNames({"debug", "release"})
    ensures DependenciesOf(AndroidRegistrations(ProjectWith(AppExtension([PlainDebug, PlainRelease]))), TestTask)
         == TaskNames({"debugAndroidTest", "debugUnitTest"} + {"releaseUnitTest"})
  {
    ProjectRegistrations(AppExtension([PlainDebug, PlainRelease]), [PlainDebug, PlainRelease]);
    DependenciesViaUnions(DefaultRules, [PlainDebug, PlainRelease]);
    PlainKeptPrimaries();
    PlainKeptSecondaries();
  }

  lemma TestPluginKeptNames()
    ensures PrimaryNameUnion(DefaultRules, [TestProjectDebug]) == {"debug"}
    ensures SecondaryNameUnion(DefaultRules, [TestProjectDebug]) == {}
  {
    OneVariant(DefaultRules, TestProjectDebug);
    assert !Ignored(DefaultRules, TestProjectDebug);
    assert TestVariants(TestProjectDebug) == [];
  }

  /** With the test plugin only the debug task is registered, and `detektTest`
      depends on nothing. */
  lemma TestPluginScenario()
    ensures DependenciesOf(AndroidRegistrations(ProjectWith(TestExtension([TestProjectDebug]))), MainTask)
         == TaskNames({"debug"})
    ensures DependenciesOf(AndroidRegistrations(ProjectWith(TestExtension([TestProjectDebug]))), TestTask)
         == TaskNames({})
  {
    ProjectRegistrations(TestExtension([TestProjectDebug]), [TestProjectDebug]);
    DependenciesViaUnions(DefaultRules, [TestProjectDebug]);
    TestPluginKeptNames();
  }
}

=== FILE: detekt_plugin.dfy ===
/** The base plugin of DetektPlugin.kt: it chooses (or creates) the detekt
    extension, points its reports directory at `<reporting>/detekt`, picks up
    a default configuration file, declares the detekt-cli tool dependency,
    registers the plain `detekt` and `detektBaseline` tasks over the existing
    input directories, makes `check` depend on `detekt`, and, under the
    Kotlin JVM plugin, registers one type-resolving task per source set. */
module DetektPlugin {
  import opened Outcomes
  import opened Naming
  import opened Registry
  import opened AndroidExtension

  const DetektExtensionName: string := "detekt"
  const DetektAndroidExtensionName: string := "detektAndroid"
  const BaselineTaskName: string := "detektBaseline"
  const GenerateConfigTaskName: string := "detektGenerateConfig"
  const CheckTaskName: string := "check"
  const DefaultIncludes: seq<string> := ["**/*.kt", "**/*.kts"]
  const DefaultExcludes: seq<string> := ["build/"]
  const ConfigDirName: Path := ["config", "detekt"]
  const ConfigFileName: string := "detekt.yml"
  const ToolCoordinatePrefix: string := "io.gitlab.arturbosch.detekt:detekt-cli:"
  /** The directory under the project's reporting base where reports go. */
  const ReportsSubdirectory: string := "detekt"

  /** The extension settings the plugin itself reads or writes. */
  datatype Settings = Settings(reportsDir: Path, toolVersion: Option<string>, input: seq<Path>, config: seq<Path>)

  /** A value registered in the project's extension container. The Android
      extension is a subtype of the detekt extension: it carries the same
      settings plus the ignore lists. */
  datatype ExtensionValue =
    | DetektExtension(settings: Settings)
    | DetektAndroidExtension(settings: Settings, rules: IgnoreRules)
    | ForeignExtension

  /** `as? DetektExtension` succeeds on both detekt extension kinds. */
  predicate IsDetektExtension(e: ExtensionValue) {
    !e.ForeignExtension?
  }

  /** An existing `detektAndroid` extension that `as? DetektExtension` accepts. */
  predicate AndroidExtensionReusable(extensions: map<string, ExtensionValue>) {
    DetektAndroidExtensionName in extensions && IsDetektExtension(extensions[DetektAndroidExtensionName])
  }

  /** The settings of the extension `getOrCreateExtension` picks: the reused
      `detektAndroid` extension's, or the fresh ones of a new `detekt`. */
  function ChosenSettings(extensions: map<string, ExtensionValue>, freshSettings: Settings): Settings {
    if AndroidExtensionReusable(extensions) then extensions[DetektAndroidExtensionName].settings else freshSettings
  }

  /** `getOrCreateExtension`: an existing `detektAndroid` extension that is a
      detekt extension is reused; otherwise a new `detekt` extension is created,
      which Gradle refuses when that name is already taken. */
  function GetOrCreateExtension(extensions: map<string, ExtensionValue>, newSettings: Settings): (r: Result<(string, ExtensionValue), Error>)
    ensures r.Failure? <==> !AndroidExtensionReusable(extensions) && DetektExtensionName in extensions
    ensures r.Failure? ==> r.error == DuplicateExtension(DetektExtensionName)
    ensures AndroidExtensionReusable(extensions)
      ==> r == Success((DetektAndroidExtensionName, extensions[DetektAndroidExtensionName]))
    ensures r.Success? ==> IsDetektExtension(r.value.1)
    ensures r.Success? ==> r.value.1.settings == ChosenSettings(extensions, newSettings)
    ensures r.Success? && r.value.0 == DetektAndroidExtensionName
      ==> DetektAndroidExtensionName in extensions && r.value.1 == extensions[DetektAndroidExtensionName]
    ensures r.Success? && r.value.0 != DetektAndroidExtensionName
      ==> r.value == (DetektExtensionName, DetektExtension(newSettings)) && DetektExtensionName !in extensions
  {
    if AndroidExtensionReusable(extensions) then
      Success((DetektAndroidExtensionName, extensions[DetektAndroidExtensionName]))
    else if DetektExtensionName in extensions then
      Failure(DuplicateExtension(DetektExtensionName))
    else
      Success((DetektExtensionName, DetektExtension(newSettings)))
  }

  /** Recovers the version from a detekt-cli dependency coordinate. */
  function VersionOf(coordinate: string): Option<string> {
    if |coordinate| >= |ToolCoordinatePrefix| && coordinate[..|ToolCoordinatePrefix|] == ToolCoordinatePrefix
    then Some(coordinate[|ToolCoordinatePrefix|..])
    else None
  }

  /** The default dependency of the `detekt` configuration: the detekt-cli
      coordinate whose version is `toolVersion` when set and the default
      version otherwise. */
  function ToolDependency(toolVersion: Option<string>, defaultVersion: string): (r: string)
    ensures VersionOf(r) == Some(toolVersion.GetOr(defaultVersion))
    ensures toolVersion.Some? ==> VersionOf(r) == Some(toolVersion.value)
    ensures toolVersion.None? ==> VersionOf(r) == Some(defaultVersion)
  {
    var r := ToolCoordinatePrefix + toolVersion.GetOr(defaultVersion);
    assert r[..|ToolCoordinatePrefix|] == ToolCoordinatePrefix;
    assert r[|ToolCoordinatePrefix|..] == toolVersion.GetOr(defaultVersion);
    r
  }

  /** A task over the configured input directories (`detekt`, `detektBaseline`). */
  datatype InputTask = InputTask(name: string, sources: seq<Path>, includes: seq<string>, excludes: seq<string>)

  /** Such a task analyses only the input directories that exist, includes
      Kotlin sources and scripts, and excludes build output. */
  function ExistingInputTask(name: string, settings: Settings, existing: set<Path>): (r: InputTask)
    ensures r.name == name
    ensures forall p :: p in r.sources <==> p in settings.input && p in existing
    ensures forall g :: g in r.includes <==> g == "**/*.kt" || g == "**/*.kts"
    ensures r.excludes == ["build/"]
  {
    InputTask(name, KeepExisting(existing, settings.input), DefaultIncludes, DefaultExcludes)
  }

  /** A JVM source set, with its Kotlin source set when there is one. */
  datatype SourceSet = SourceSet(
    name: string,
    kotlin: Option<seq<Path>>,
    compileClasspath: seq<Path>,
    classesDirs: seq<Path>)

  /** `registerJvmDetektTask`: a source set without a Kotlin source set is a
      configuration error. Otherwise the task is named after the source set,
      its reports are named after the source set, it analyses the Kotlin
      files, and its classpath is the whole compile classpath followed by
      only those class-output directories that exist. */
  function JvmTask(reportsDir: Path, existing: set<Path>, s: SourceSet): (r: Result<Descriptor, Error>)
    ensures r.Failure? <==> s.kotlin.None?
    ensures r.Failure? ==> r.error == KotlinSourceSetNotFound
    ensures r.Success? ==> r.value.taskName == TaskName(s.name)
    ensures r.Success? ==> ReportUnit(r.value.reports.xml, reportsDir, XmlExtension) == Some(s.name)
    ensures r.Success? ==> ReportUnit(r.value.reports.html, reportsDir, HtmlExtension) == Some(s.name)
    ensures r.Success? ==> ReportUnit(r.value.reports.txt, reportsDir, TxtExtension) == Some(s.name)
    ensures r.Success? ==> r.value.sources == s.kotlin.value
    ensures r.Success? ==> forall p :: p in r.value.classpath <==> p in s.compileClasspath || (p in s.classesDirs && p in existing)
    ensures r.Success? ==>
              |r.value.classpath| >= |s.compileClasspath| && r.value.classpath[..|s.compileClasspath|] == s.compileClasspath
  {
    match s.kotlin
    case None => Failure(KotlinSourceSetNotFound)
    case Some(files) =>
      Success(UnitDescriptor(s.name, files, s.compileClasspath + KeepExisting(existing, s.classesDirs), reportsDir))
  }

  /** `sourceSets.all { registerJvmDetektTask }`: one task per source set, in
      order, or the error of the first source set without Kotlin sources. */
  function JvmTasks(reportsDir: Path, existing: set<Path>, sets: seq<SourceSet>): (r: Result<seq<Descriptor>, Error>)
    ensures r.Success? <==> forall i :: 0 <= i < |sets| ==> sets[i].kotlin.Some?
    ensures r.Failure? ==> r.error == KotlinSourceSetNotFound
    ensures r.Success? ==> |r.value| == |sets|
    ensures r.Success? ==> forall i :: 0 <= i < |sets| ==> JvmTask(reportsDir, existing, sets[i]) == Success(r.value[i])
  {
    if sets == [] then Success([])
    else
      var head :- JvmTask(reportsDir, existing, sets[0]);
      var tail :- JvmTasks(reportsDir, existing, sets[1..]);
      Success([head] + tail)
  }

  /** The project state the base plugin reads when applied. */
  datatype Project = Project(
    extensions: map<string, ExtensionValue>,
    freshSettings: Settings,
    reportingBaseDir: Path,
    rootDir: Path,
    existing: set<Path>,
    defaultVersion: string,
    hasCheckTask: bool,
    kotlinJvmApplied: bool,
    sourceSets: seq<SourceSet>)

  /** What applying the base plugin sets up; `tasks` is the task container
      afterwards. */
  datatype Setup = Setup(
    extensionName: string,
    settings: Settings,
    toolDependency: string,
    detektTask: InputTask,
    baselineTask: InputTask,
    checkDependencies: set<string>,
    jvmTasks: seq<Descriptor>,
    tasks: set<string>)

  /** Tasks the base plugin registers while it is applied, under fixed names. */
  const BaseTaskNames: set<string> := {DetektTaskName, BaselineTaskName, GenerateConfigTaskName}

  function DefaultConfigFile(rootDir: Path): Path {
    rootDir + ConfigDirName + [ConfigFileName]
  }

  /** The names the source-set tasks are registered under, in order: one per
      source set under the Kotlin JVM plugin, none otherwise. */
  function JvmTaskNames(p: Project): seq<string> {
    if p.kotlinJvmApplied then seq(|p.sourceSets|, i requires 0 <= i < |p.sourceSets| => TaskName(p.sourceSets[i].name))
    else []
  }

  predicate SourceSetsHaveKotlin(p: Project) {
    p.kotlinJvmApplied ==> forall i :: 0 <= i < |p.sourceSets| ==> p.sourceSets[i].kotlin.Some?
  }

  /** Source-set tasks are registered under no umbrella. */
  function JvmRegistrations(tasks: seq<Descriptor>): (r: seq<Registration>)
    ensures |r| == |tasks|
    ensures forall i :: 0 <= i < |tasks| ==> r[i] == Registration(Ungrouped, tasks[i])
  {
    seq(|tasks|, i requires 0 <= i < |tasks| => Registration(Ungrouped, tasks[i]))
  }

  /** The source-set tasks carry the names `JvmTaskNames` predicts. */
  lemma JvmRegistrationNames(p: Project, reportsDir: Path, jvm: seq<Descriptor>)
    requires p.kotlinJvmApplied
    requires JvmTasks(reportsDir, p.existing, p.sourceSets) == Success(jvm)
    ensures TaskNamesOf(JvmRegistrations(jvm)) == JvmTaskNames(p)
  {
    var names := TaskNamesOf(JvmRegistrations(jvm));
    forall i | 0 <= i < |names| ensures names[i] == JvmTaskNames(p)[i] {
      assert JvmTask(reportsDir, p.existing, p.sourceSets[i]) == Success(jvm[i]);
    }
  }

  /** The `afterEvaluate` part of the base plugin: one task per source set
      under the Kotlin JVM plugin, registered after the base tasks. The
      result is the tasks and the container afterwards. */
  function RegisterSourceSets(p: Project, reportsDir: Path): (r: Result<(seq<Descriptor>, set<string>), Error>)
    ensures r.Success? <==> SourceSetsHaveKotlin(p) && Fresh(BaseTaskNames, JvmTaskNames(p))
    ensures r.Failure? ==> r.error == KotlinSourceSetNotFound || r.error.DuplicateTask?
    ensures r.Failure? && r.error == KotlinSourceSetNotFound ==> !SourceSetsHaveKotlin(p)
    ensures r.Failure? && r.error.DuplicateTask? ==> Some(r.error.name) == FirstTaken(BaseTaskNames, JvmTaskNames(p))
    ensures r.Success? ==> r.value.1 == BaseTaskNames + Elements(JvmTaskNames(p))
    ensures r.Success? && !p.kotlinJvmApplied ==> r.value.0 == []
    ensures r.Success? && p.kotlinJvmApplied ==> JvmTasks(reportsDir, p.existing, p.sourceSets) == Success(r.value.0)
  {
    var jvm :- if p.kotlinJvmApplied then JvmTasks(reportsDir, p.existing, p.sourceSets) else Success([]);
    var names := TaskNamesOf(JvmRegistrations(jvm));
    assert names == JvmTaskNames(p) by {
      if p.kotlinJvmApplied {
        JvmRegistrationNames(p, reportsDir, jvm);
      }
    }
    match FirstTaken(BaseTaskNames, names)
    case Some(taken) => Failure(DuplicateTask(taken))
    case None => Success((jvm, BaseTaskNames + Elements(names)))
  }

  /** `apply` of the base plugin, with the source-set registration that runs
      after evaluation folded in. It fails when the extension cannot be
      created, when a source set has no Kotlin source set, or, naming the
      first clash, when a source-set task's name is already taken. */
  function Apply(p: Project): (r: Result<Setup, Error>)
    ensures r.Success? <==> (AndroidExtensionReusable(p.extensions) || DetektExtensionName !in p.extensions)
                            && SourceSetsHaveKotlin(p) && Fresh(BaseTaskNames, JvmTaskNames(p))
    ensures !AndroidExtensionReusable(p.extensions) && DetektExtensionName in p.extensions
      ==> r == Failure(DuplicateExtension(DetektExtensionName))
    ensures r.Failure? && r.error.DuplicateTask? ==> Some(r.error.name) == FirstTaken(BaseTaskNames, JvmTaskNames(p))
    ensures r.Failure? && r.error == KotlinSourceSetNotFound ==> !SourceSetsHaveKotlin(p)
    ensures r.Success? ==> r.value.extensionName
                           == (if AndroidExtensionReusable(p.extensions) then DetektAndroidExtensionName else DetektExtensionName)
    ensures r.Success? ==> r.value.tasks == BaseTaskNames + Elements(JvmTaskNames(p))
    ensures r.Success? ==> r.value.settings.reportsDir == p.reportingBaseDir + ["detekt"]
    ensures r.Success? ==> r.value.settings.toolVersion == ChosenSettings(p.extensions, p.freshSettings).toolVersion
    ensures r.Success? ==> r.value.settings.input == ChosenSettings(p.extensions, p.freshSettings).input
    ensures r.Success? ==> (DefaultConfigFile(p.rootDir) !in p.existing ==> r.value.settings.config == ChosenSettings(p.extensions, p.freshSettings).config)
    ensures r.Success? ==> (DefaultConfigFile(p.rootDir) in p.existing ==> r.value.settings.config == [DefaultConfigFile(p.rootDir)])
    ensures r.Success? ==> VersionOf(r.value.toolDependency) == Some(r.value.settings.toolVersion.GetOr(p.defaultVersion))
    ensures r.Success? ==> r.value.detektTask.name == "detekt" && r.value.baselineTask.name == "detektBaseline"
    ensures r.Success? ==> r.value.detektTask.sources == r.value.baselineTask.sources
    ensures r.Success? ==> forall q :: q in r.value.detektTask.sources <==> q in r.value.settings.input && q in p.existing
    ensures r.Success? ==> r.value.checkDependencies == (if p.hasCheckTask then {"detekt"} else {})
    ensures r.Success? && !p.kotlinJvmApplied ==> r.value.jvmTasks == []
    ensures r.Success? && p.kotlinJvmApplied ==> |r.value.jvmTasks| == |p.sourceSets|
    ensures r.Success? && p.kotlinJvmApplied ==>
              forall i :: 0 <= i < |p.sourceSets| ==> r.value.jvmTasks[i].taskName == TaskName(p.sourceSets[i].name)
  {
    var ext :- GetOrCreateExtension(p.extensions, p.freshSettings);
    var located := ext.1.settings.(reportsDir := p.reportingBaseDir + [ReportsSubdirectory]);
    var settings :=
      if DefaultConfigFile(p.rootDir) in p.existing then located.(config := [DefaultConfigFile(p.rootDir)])
      else located;
    var registered :- RegisterSourceSets(p, settings.reportsDir);
    Success(Setup(
      ext.0,
      settings,
      ToolDependency(settings.toolVersion, p.defaultVersion),
      ExistingInputTask(DetektTaskName, settings, p.existing),
      ExistingInputTask(BaselineTaskName, settings, p.existing),
      if p.hasCheckTask then {DetektTaskName} else {},
      registered.0,
      registered.1))
  }

  /** The source set `main` gets the task `detektMain` and `test` gets
      `detektTest`: the same names as the Android umbrellas. */
  lemma JvmTaskNamesOfStandardSourceSets()
    ensures TaskName("main") == MainUmbrellaName
    ensures TaskName("test") == TestUmbrellaName
  {
    assert Capitalize("main") == "Main";
    assert Capitalize("test") == "Test";
  }

  /** Two positions of a registration sequence with the same name make it
      unregistrable. */
  lemma RepeatedNameNotFresh(registered: set<string>, names: seq<string>, i: nat, j: nat)
    requires i < |names| && j < |names| && i != j && names[i] == names[j]
    ensures !Fresh(registered, names)
  {
    if i > j {
      assert names[j] == names[i];
    }
  }

  /** A source set named `baseline` asks for the task `detektBaseline`,
      which the base plugin has already registered, so applying fails. */
  lemma BaselineSourceSetClashes(p: Project, i: nat)
    requires p.kotlinJvmApplied && i < |p.sourceSets| && p.sourceSets[i].name == "baseline"
    ensures Apply(p).Failure?
  {
    assert Capitalize("baseline") == "Baseline";
    assert JvmTaskNames(p)[i] == BaselineTaskName;
  }

  /** Two source sets whose names differ only in the case of their first
      letter ask for the same task name, so applying fails. */
  lemma CaseClashingSourceSets(p: Project, i: nat, j: nat)
    requires p.kotlinJvmApplied && i < |p.sourceSets| && j < |p.sourceSets| && i != j
    requires SameUpToInitialCase(p.sourceSets[i].name, p.sourceSets[j].name)
    ensures Apply(p).Failure?
  {
    TaskNameCollision(p.sourceSets[i].name, p.sourceSets[j].name);
    RepeatedNameNotFresh(BaseTaskNames, JvmTaskNames(p), i, j);
  }
}

=== FILE: naming.dfy ===
/** The naming, report and classpath scheme shared by every generated detekt
    task: `registerAndroidDetektTask` in DetektAndroidPlugin.kt and
    `registerJvmDetektTask` in DetektPlugin.kt build their tasks the same way. */
module Naming {
  import opened Outcomes

  /** A file as the sequence of its path segments; `java.io.File(dir, child)`
      is `dir + [child]`. */
  type Path = seq<string>

  /** `DetektPlugin.DETEKT_TASK_NAME`, the prefix of every generated task. */
  const DetektTaskName: string := "detekt"

  /** The two umbrella tasks of the Android plugin. */
  const MainUmbrellaName: string := DetektTaskName + "Main"
  const TestUmbrellaName: string := DetektTaskName + "Test"

  const XmlExtension: string := ".xml"
  const HtmlExtension: string := ".html"
  const TxtExtension: string := ".txt"

  const DescriptionPrefix: string := "EXPERIMENTAL & SLOW: Run detekt analysis for "
  const DescriptionSuffix: string := " classes with type resolution"

  predicate IsAsciiLower(c: char) {
    'a' <= c <= 'z'
  }

  predicate IsAsciiUpper(c: char) {
    'A' <= c <= 'Z'
  }

  function UpperAscii(c: char): (u: char)
    ensures !IsAsciiLower(u)
    ensures LowerAscii(u) == LowerAscii(c)
  {
    if IsAsciiLower(c) then (c as int - 32) as char else c
  }

  function LowerAscii(c: char): (l: char)
    ensures !IsAsciiUpper(l)
    ensures !IsAsciiUpper(c) ==> l == c
  {
    if IsAsciiUpper(c) then (c as int + 32) as char else c
  }

  /** Kotlin's `String.capitalize()` on ASCII: a leading lower-case letter is
      upper-cased, everything else is kept. The contract pins the result down
      completely: same length, same tail, and a first character that is not
      lower-case but equal to the original up to case. */
  function Capitalize(s: string): (r: string)
    ensures |r| == |s|
    ensures |s| > 0 ==> r[1..] == s[1..]
    ensures |s| > 0 ==> !IsAsciiLower(r[0]) && LowerAscii(r[0]) == LowerAscii(s[0])
  {
    if |s| == 0 then s else [UpperAscii(s[0])] + s[1..]
  }

  /** The inverse of `Capitalize` on names that do not start with an upper-case letter. */
  function Decapitalize(s: string): string {
    if |s| == 0 then s else [LowerAscii(s[0])] + s[1..]
  }

  /** The name of the task generated for a variant or source set. */
  function TaskName(unitName: string): (r: string)
    ensures |r| == |DetektTaskName| + |unitName|
    ensures r[..|DetektTaskName|] == DetektTaskName
  {
    DetektTaskName + Capitalize(unitName)
  }

  /** Recovers the unit name from a generated task name, assuming the unit
      name did not start with an upper-case letter. */
  function UnitNameOf(taskName: string): Option<string> {
    if |taskName| >= |DetektTaskName| && taskName[..|DetektTaskName|] == DetektTaskName
    then Some(Decapitalize(taskName[|DetektTaskName|..]))
    else None
  }

  /** Two unit names that agree except for the case of their first letter. */
  predicate SameUpToInitialCase(a: string, b: string) {
    && |a| == |b|
    && (|a| > 0 ==> LowerAscii(a[0]) == LowerAscii(b[0]) && a[1..] == b[1..])
  }

  /** Task naming is a round trip for every name that does not start with an
      upper-case letter (Android variant and source-set names start lower-case). */
  lemma TaskNameRoundTrip(unitName: string)
    requires |unitName| == 0 || !IsAsciiUpper(unitName[0])
    ensures UnitNameOf(TaskName(unitName)) == Some(unitName)
  {
    var t := TaskName(unitName);
    assert t[|DetektTaskName|..] == Capitalize(unitName);
    if |unitName| > 0 {
      var c := Capitalize(unitName);
      assert Decapitalize(c) == [LowerAscii(c[0])] + c[1..];
      assert [LowerAscii(c[0])] + c[1..] == [unitName[0]] + unitName[1..];
      assert unitName == [unitName[0]] + unitName[1..];
    }
  }

  /** Exactly the names that differ only in the case of their first letter get
      the same task name; such a pair is a duplicate-task configuration error. */
  lemma TaskNameCollision(a: string, b: string)
    ensures TaskName(a) == TaskName(b) <==> SameUpToInitialCase(a, b)
  {
    var n := |DetektTaskName|;
    if TaskName(a) == TaskName(b) {
      assert Capitalize(a) == TaskName(a)[n..] == TaskName(b)[n..] == Capitalize(b);
    }
    if SameUpToInitialCase(a, b) && |a| > 0 {
      var ca, cb := Capitalize(a), Capitalize(b);
      assert UpperAscii(a[0]) == UpperAscii(b[0]) by {
        UpperDependsOnlyOnLower(a[0], b[0]);
      }
      assert ca == [UpperAscii(a[0])] + a[1..];
      assert cb == [UpperAscii(b[0])] + b[1..];
    }
  }

  lemma UpperDependsOnlyOnLower(x: char, y: char)
    requires LowerAscii(x) == LowerAscii(y)
    ensures UpperAscii(x) == UpperAscii(y)
  {
  }

  /** The file `reportsDir/<unitName><ext>`. */
  function ReportFile(reportsDir: Path, unitName: string, ext: string): Path {
    reportsDir + [unitName + ext]
  }

  /** Recovers the unit name from a report file of the given extension under `reportsDir`. */
  function ReportUnit(p: Path, reportsDir: Path, ext: string): Option<string> {
    if |p| == |reportsDir| + 1 && p[..|reportsDir|] == reportsDir
       && |p[|reportsDir|]| >= |ext| && p[|reportsDir|][|p[|reportsDir|]| - |ext|..] == ext
    then Some(p[|reportsDir|][..|p[|reportsDir|]| - |ext|])
    else None
  }

  /** The three report destinations of one generated task. */
  datatype Reports = Reports(xml: Path, html: Path, txt: Path) {
    function Files(): set<Path> {
      {xml, html, txt}
    }
  }

  /** Report destinations of a unit: named by the unit's own name, not by its
      task name, each directly inside `reportsDir` and decodable back to the unit. */
  function ReportsFor(reportsDir: Path, unitName: string): (r: Reports)
    ensures ReportUnit(r.xml, reportsDir, XmlExtension) == Some(unitName)
    ensures ReportUnit(r.html, reportsDir, HtmlExtension) == Some(unitName)
    ensures ReportUnit(r.txt, reportsDir, TxtExtension) == Some(unitName)
  {
    var r := Reports(ReportFile(reportsDir, unitName, XmlExtension),
                     ReportFile(reportsDir, unitName, HtmlExtension),
                     ReportFile(reportsDir, unitName, TxtExtension));
    ReportFileDecodes(reportsDir, unitName, XmlExtension);
    ReportFileDecodes(reportsDir, unitName, HtmlExtension);
    ReportFileDecodes(reportsDir, unitName, TxtExtension);
    r
  }

  lemma ReportFileDecodes(reportsDir: Path, unitName: string, ext: string)
    ensures ReportUnit(ReportFile(reportsDir, unitName, ext), reportsDir, ext) == Some(unitName)
  {
    var p := ReportFile(reportsDir, unitName, ext);
    assert p[..|reportsDir|] == reportsDir;
    assert p[|reportsDir|] == unitName + ext;
    assert (unitName + ext)[|unitName|..] == ext;
    assert (unitName + ext)[..|unitName|] == unitName;
  }

  /** The last four characters of a report file name identify its extension. */
  function Tail4(s: string): string
    requires |s| >= 4
  {
    s[|s| - 4..]
  }

  lemma Tail4OfAppend(a: string, e: string)
    requires |e| >= 4
    ensures Tail4(a + e) == Tail4(e)
  {
    assert (a + e)[|a + e| - 4..] == e[|e| - 4..];
  }

  predicate IsReportExtension(ext: string) {
    ext == XmlExtension || ext == HtmlExtension || ext == TxtExtension
  }

  /** A report file determines both its unit and its extension. */
  lemma ReportFileInjective(reportsDir: Path, x: string, ex: string, y: string, ey: string)
    requires IsReportExtension(ex) && IsReportExtension(ey)
    requires ReportFile(reportsDir, x, ex) == ReportFile(reportsDir, y, ey)
    ensures x == y && ex == ey
  {
    var last := |reportsDir|;
    assert x + ex == ReportFile(reportsDir, x, ex)[last];
    assert x + ex == y + ey;
    Tail4OfAppend(x, ex);
    Tail4OfAppend(y, ey);
    assert ex == ey;
    assert x == (x + ex)[..|x|] == (y + ey)[..|y|] == y;
  }

  /** One unit's three report files are pairwise distinct. */
  lemma ReportsDistinct(reportsDir: Path, a: string)
    ensures |ReportsFor(reportsDir, a).Files()| == 3
  {
    var exts := [XmlExtension, HtmlExtension, TxtExtension];
    forall i, j | 0 <= i < 3 && 0 <= j < 3 && ReportFile(reportsDir, a, exts[i]) == ReportFile(reportsDir, a, exts[j])
      ensures exts[i] == exts[j]
    {
      ReportFileInjective(reportsDir, a, exts[i], a, exts[j]);
    }
    assert ReportsFor(reportsDir, a).Files() == {ReportFile(reportsDir, a, exts[0]), ReportFile(reportsDir, a, exts[1]), ReportFile(reportsDir, a, exts[2])};
  }

  /** Every report file of a unit is distinct from every report file of every
      other unit: tasks that share `reportsDir` never overwrite each other's
      reports. */
  lemma ReportsDisjoint(reportsDir: Path, a: string, b: string)
    ensures a != b ==> ReportsFor(reportsDir, a).Files() !! ReportsFor(reportsDir, b).Files()
  {
    var exts := [XmlExtension, HtmlExtension, TxtExtension];
    forall i, j | 0 <= i < 3 && 0 <= j < 3 && ReportFile(reportsDir, a, exts[i]) == ReportFile(reportsDir, b, exts[j])
      ensures a == b
    {
      ReportFileInjective(reportsDir, a, exts[i], b, exts[j]);
    }
    assert ReportsFor(reportsDir, a).Files() == {ReportFile(reportsDir, a, exts[0]), ReportFile(reportsDir, a, exts[1]), ReportFile(reportsDir, a, exts[2])};
    assert ReportsFor(reportsDir, b).Files() == {ReportFile(reportsDir, b, exts[0]), ReportFile(reportsDir, b, exts[1]), ReportFile(reportsDir, b, exts[2])};
  }

  /** The human-readable description of a generated task. */
  function Description(unitName: string): string {
    DescriptionPrefix + unitName + DescriptionSuffix
  }

  /** `files.filter { it.exists() }` against a snapshot `existing` of the
      file system: keeps exactly the existing entries, in order. */
  function KeepExisting(existing: set<Path>, files: seq<Path>): (r: seq<Path>)
    ensures |r| <= |files|
    ensures forall p :: p in r <==> p in files && p in existing
  {
    if files == [] then []
    else (if files[0] in existing then [files[0]] else []) + KeepExisting(existing, files[1..])
  }

  /** The union of several directory groups, kept in order: how a task's
      source is set from a list of source providers' directories. */
  function Flatten(groups: seq<seq<Path>>): (r: seq<Path>)
    ensures forall p :: p in r <==> exists g :: g in groups && p in g
  {
    if groups == [] then [] else groups[0] + Flatten(groups[1..])
  }

  /** A generated analysis task: its name, inputs, classpath and reports. */
  datatype Descriptor = Descriptor(
    taskName: string,
    sources: seq<Path>,
    classpath: seq<Path>,
    reports: Reports,
    description: string)

  /** The common shape of both per-unit registrations. */
  function UnitDescriptor(unitName: string, sources: seq<Path>, classpath: seq<Path>, reportsDir: Path): Descriptor {
    Descriptor(TaskName(unitName), sources, classpath, ReportsFor(reportsDir, unitName), Description(unitName))
  }
}

=== FILE: outcomes.dfy ===
/** Kotlin's nullable values and Gradle's configuration errors, as the two
    value-or-nothing shapes the plugins' logic passes around. */
module Outcomes {

  /** A Kotlin `T?`; `None` plays `null`. */
  datatype Option<+T> = None | Some(value: T) {

    /** The elvis operator `this ?: default`. */
    function GetOr(default: T): T {
      match this
      case Some(v) => v
      case None => default
    }
  }

  /** A configuration step either yields its value or stops the build with
      an error; `:-` threads the error through. */
  datatype Result<+R, +E> = Success(value: R) | Failure(error: E) {

    predicate IsFailure() {
      Failure?
    }

    function PropagateFailure<U>(): Result<U, E>
      requires Failure?
    {
      Failure(error)
    }

    function Extract(): R
      requires Success?
    {
      value
    }
  }
}

=== FILE: registry.dfy ===
/** Gradle's task container, reduced to what the plugins rely on:
    registering a task adds its name, a name can be registered only once, and
    an umbrella task's dependencies are the names wired under it. A duplicate
    name is Gradle's configuration error, surfaced here as a `Failure` that
    names the first registration whose name was already taken. */
module Registry {
  import opened Outcomes
  import opened Naming

  /** Which umbrella a generated task is wired under, if any. */
  datatype Category = MainTask | TestTask | Ungrouped

  /** One `register` call followed by a `dependsOn` on an umbrella. */
  datatype Registration = Registration(category: Category, task: Descriptor)

  datatype Error =
    | DuplicateTask(name: string)
    | DuplicateExtension(name: string)
    | KotlinSourceSetNotFound

  /** The registered task names and both umbrellas' dependency sets. */
  datatype Graph = Graph(tasks: set<string>, mainDependencies: set<string>, testDependencies: set<string>)

  function Elements(names: seq<string>): set<string> {
    set n | n in names
  }

  lemma ElementsAppend(a: seq<string>, b: seq<string>)
    ensures Elements(a + b) == Elements(a) + Elements(b)
  {
  }

  /** The names the registrations introduce, in registration order. */
  function TaskNamesOf(regs: seq<Registration>): (r: seq<string>)
    ensures |r| == |regs|
    ensures forall i :: 0 <= i < |regs| ==> r[i] == regs[i].task.taskName
  {
    seq(|regs|, i requires 0 <= i < |regs| => regs[i].task.taskName)
  }

  /** The names the registrations introduce, as a set. */
  function NamesOf(regs: seq<Registration>): set<string> {
    Elements(TaskNamesOf(regs))
  }

  /** The names wired under the umbrella of `category`. */
  function DependenciesOf(regs: seq<Registration>, category: Category): set<string> {
    set i | 0 <= i < |regs| && regs[i].category == category :: regs[i].task.taskName
  }

  /** One more registration adds its name to its own umbrella only. */
  lemma DependenciesOfSnoc(regs: seq<Registration>, x: Registration, category: Category)
    ensures DependenciesOf(regs + [x], category)
         == DependenciesOf(regs, category) + (if x.category == category then {x.task.taskName} else {})
  {
    var all := regs + [x];
    forall n | n in DependenciesOf(all, category) ensures n in DependenciesOf(regs, category) || (x.category == category && n == x.task.taskName) {
      var i :| 0 <= i < |all| && all[i].category == category && all[i].task.taskName == n;
      if i < |regs| {
        assert all[i] == regs[i];
      }
    }
    forall n | n in DependenciesOf(regs, category) ensures n in DependenciesOf(all, category) {
      var i :| 0 <= i < |regs| && regs[i].category == category && regs[i].task.taskName == n;
      assert all[i] == regs[i];
    }
    if x.category == category {
      assert all[|regs|] == x;
    }
  }

  /** Registering `names` in order into a container holding `registered`
      never meets a name that is already taken. */
  predicate Fresh(registered: set<string>, names: seq<string>) {
    && (forall i :: 0 <= i < |names| ==> names[i] !in registered)
    && (forall i, j :: 0 <= i < j < |names| ==> names[i] != names[j])
  }

  /** The `i`-th name is taken when its turn comes: it was in the container
      or an earlier name of the sequence is the same. */
  predicate TakenAt(registered: set<string>, names: seq<string>, i: int)
    requires 0 <= i < |names|
  {
    names[i] in registered || names[i] in names[..i]
  }

  predicate Registrable(registered: set<string>, regs: seq<Registration>) {
    Fresh(registered, TaskNamesOf(regs))
  }

  /** The name Gradle rejects when `names` are registered one after another:
      the first one that is already taken, if any. */
  function FirstTaken(registered: set<string>, names: seq<string>): (r: Option<string>)
    ensures r.None? <==> Fresh(registered, names)
    ensures r.Some? ==> r.value in names
    decreases |names|
  {
    if names == [] then None
    else if names[0] in registered then Some(names[0])
    else
      FreshCons(registered, names);
      FirstTaken(registered + {names[0]}, names[1..])
  }

  /** The rejected name is taken at its position, and every name before it
      went through. */
  lemma {:induction false} FirstTakenIsFirst(registered: set<string>, names: seq<string>)
    requires FirstTaken(registered, names).Some?
    ensures exists i :: 0 <= i < |names| && names[i] == FirstTaken(registered, names).value
                        && TakenAt(registered, names, i) && Fresh(registered, names[..i])
    decreases |names|
  {
    if names[0] in registered {
      assert TakenAt(registered, names, 0) && names[..0] == [];
    } else {
      var tail := names[1..];
      FirstTakenIsFirst(registered + {names[0]}, tail);
      var k :| 0 <= k < |tail| && tail[k] == FirstTaken(registered, names).value
               && TakenAt(registered + {names[0]}, tail, k) && Fresh(registered + {names[0]}, tail[..k]);
      assert names[..k + 1] == [names[0]] + tail[..k];
      FreshCons(registered, names[..k + 1]);
      assert names[k + 1] == tail[k];
      assert TakenAt(registered, names, k + 1);
    }
  }

  /** Peeling the first name off a registration sequence. */
  lemma FreshCons(registered: set<string>, names: seq<string>)
    requires names != []
    ensures Fresh(registered, names)
        <==> names[0] !in registered && Fresh(registered + {names[0]}, names[1..])
  {
    var tail := names[1..];
    if names[0] !in registered && Fresh(registered + {names[0]}, tail) {
      forall i, j | 0 <= i < j < |names| ensures names[i] != names[j] {
        assert names[j] == tail[j - 1];
        if i > 0 {
          assert names[i] == tail[i - 1];
        }
      }
    }
    if Fresh(registered, names) {
      forall i | 0 <= i < |tail| ensures tail[i] !in registered + {names[0]} {
        assert tail[i] == names[i + 1];
      }
      forall i, j | 0 <= i < j < |tail| ensures tail[i] != tail[j] {
        assert tail[i] == names[i + 1] && tail[j] == names[j + 1];
      }
    }
  }

  /** Registering two batches one after the other: the second batch is
      checked only when the first went through, against a container that now
      also holds the first batch. */
  lemma {:induction false} FirstTakenAppend(registered: set<string>, a: seq<string>, b: seq<string>)
    ensures FirstTaken(registered, a + b)
         == (if FirstTaken(registered, a).Some? then FirstTaken(registered, a) else FirstTaken(registered + Elements(a), b))
    decreases |a|
  {
    if a == [] {
      assert a + b == b;
      assert registered + Elements(a) == registered;
    } else {
      assert (a + b)[0] == a[0];
      assert (a + b)[1..] == a[1..] + b;
      if a[0] !in registered {
        FirstTakenAppend(registered + {a[0]}, a[1..], b);
        assert registered + {a[0]} + Elements(a[1..]) == registered + Elements(a) by {
          assert a == [a[0]] + a[1..];
        }
      }
    }
  }

  /** Registers the tasks in order and wires each under its umbrella. It
      fails on the first name already taken; otherwise each umbrella depends
      on exactly the names registered for it, and nothing else was added. */
  method RegisterAll(registered: set<string>, regs: seq<Registration>) returns (r: Result<Graph, Error>)
    ensures r.Success? <==> Registrable(registered, regs)
    ensures r.Success? ==> r.value.tasks == registered + NamesOf(regs)
    ensures r.Success? ==> r.value.mainDependencies == DependenciesOf(regs, MainTask)
    ensures r.Success? ==> r.value.testDependencies == DependenciesOf(regs, TestTask)
    ensures r.Failure? ==> r.error.DuplicateTask? && Some(r.error.name) == FirstTaken(registered, TaskNamesOf(regs))
  {
    var names := TaskNamesOf(regs);
    var tasks := registered;
    var main: set<string> := {};
    var test: set<string> := {};
    var i := 0;
    while i < |regs|
      invariant 0 <= i <= |regs|
      invariant tasks == registered + Elements(names[..i])
      invariant FirstTaken(registered, names) == FirstTaken(tasks, names[i..])
      invariant main == DependenciesOf(regs[..i], MainTask)
      invariant test == DependenciesOf(regs[..i], TestTask)
    {
      var name := regs[i].task.taskName;
      assert names[i..][0] == name;
      if name in tasks {
        assert FirstTaken(tasks, names[i..]) == Some(name);
        return Failure(DuplicateTask(name));
      }
      assert names[i..][1..] == names[i + 1..];
      assert FirstTaken(tasks, names[i..]) == FirstTaken(tasks + {name}, names[i + 1..]);
      assert names[..i + 1] == names[..i] + [name];
      tasks := tasks + {name};
      if regs[i].category == MainTask {
        main := main + {name};
      } else if regs[i].category == TestTask {
        test := test + {name};
      }
      assert regs[..i + 1] == regs[..i] + [regs[i]];
      DependenciesOfSnoc(regs[..i], regs[i], MainTask);
      DependenciesOfSnoc(regs[..i], regs[i], TestTask);
      i := i + 1;
    }
    assert regs[..i] == regs;
    assert names[..i] == names;
    assert FirstTaken(tasks, names[i..]) == None;
    r := Success(Graph(tasks, main, test));
  }
}

=== FILE: variants.dfy ===
/** The Android build-variant data the plugin reads once configuration has
    settled (DetektAndroidPlugin.kt): the variants of whichever Android
    extension is present, and the secondary (test) variants of each. How the
    Android Gradle plugin builds the flavor x build-type product is not
    modelled; variants are given data. */
module Variants {
  import opened Outcomes
  import opened Naming

  /** A build variant (`BaseVariant`). Secondary variants have the same shape. */
  datatype Variant = Variant(
    name: string,
    buildTypeName: string,
    flavorName: string,
    javaDirectories: seq<seq<Path>>,
    compileClasspath: seq<Path>,
    testing: Testing)

  /** Whether the variant is a `TestedVariant`, and if so its nullable
      instrumentation `testVariant` and nullable `unitTestVariant`. */
  datatype Testing =
    | NotTested
    | Tested(testVariant: Option<Variant>, unitTestVariant: Option<Variant>)

  /** The Android extension registered by one of the Android plugins, by kind. */
  datatype BaseExtension =
    | AppExtension(applicationVariants: seq<Variant>)
    | LibraryExtension(libraryVariants: seq<Variant>)
    | TestExtension(applicationVariants: seq<Variant>)
    | OtherExtension

  /** The `variants` dispatch: application and test extensions expose their
      application variants, a library extension its library variants, and
      any other extension kind yields `null`. */
  function VariantsOf(ext: BaseExtension): (r: Option<seq<Variant>>)
    ensures r.None? <==> ext.OtherExtension?
  {
    match ext
    case AppExtension(vs) => Some(vs)
    case LibraryExtension(vs) => Some(vs)
    case TestExtension(vs) => Some(vs)
    case OtherExtension => None
  }

  /** Kotlin's `listOfNotNull`: the present values, in order. */
  function ListOfNotNull<T(!new)>(xs: seq<Option<T>>): (r: seq<T>)
    ensures |r| <= |xs|
    ensures forall x :: x in r <==> Some(x) in xs
  {
    if xs == [] then []
    else (if xs[0].Some? then [xs[0].value] else []) + ListOfNotNull(xs[1..])
  }

  /** The secondary variants of a variant: at most two, the instrumentation
      variant before the unit-test variant, absent ones dropped; a variant
      that is not a tested variant has none. */
  function TestVariants(v: Variant): (r: seq<Variant>)
    ensures |r| <= 2
    ensures v.testing.NotTested? ==> r == []
    ensures v.testing.Tested? ==>
      forall t :: t in r <==> Some(t) == v.testing.testVariant || Some(t) == v.testing.unitTestVariant
    ensures v.testing.Tested? && v.testing.testVariant.Some? ==> r[0] == v.testing.testVariant.value
    ensures v.testing.Tested? && v.testing.unitTestVariant.Some? ==> r[|r| - 1] == v.testing.unitTestVariant.value
  {
    match v.testing
    case NotTested => []
    case Tested(instrumentation, unit) =>
      assert ListOfNotNull([instrumentation, unit]) == ListOfNotNull([instrumentation]) + ListOfNotNull([unit]) by {
        assert [instrumentation, unit][1..] == [unit];
      }
      ListOfNotNull([instrumentation, unit])
  }
}
